=== FILE: README.md ===
# Speeduino event scheduler, in Dafny

This project models the event-scheduling core of the Speeduino engine
control firmware. Every injector and ignition coil channel has a schedule
record. The record is armed from the main loop with a timeout and a
duration, and it is advanced by the channel's timer compare-match
interrupt through `PENDING` (waiting for the start), `RUNNING` (injector
open or coil charging) and back to `OFF`. A one-slot queue lets the next
event be booked while the current one runs. The project also models the
surrounding arithmetic:
- the angle and timeout calculations that turn target crank angles into
  arming arguments;
- the 1 ms supervisor tick, which drives the loop counters and timer flags,
  the over-dwell protection of the coils, the tachometer output and its
  power-on sweep, and the 10 Hz RPM bookkeeping;
- the post-processing of sensor readings: the vehicle speed pulse ring
  buffer, throttle position calibration, MAP validation and cycle-minimum
  sampling, gear detection and the fuel and oil pressure clamps.

The target is the ATmega2560 board:
- Compare values are 16-bit and wrap modulo 65536.
- A timer tick is 4 µs (`>> 2`).
- The longest programmable delay is 262140 µs.
- The plain `int` is 16 bits wide.

Each operation is a pure function from the old record to the new one. The
hardware counter is an input (`counter`), and `micros()` is an input
(`now`). Everything the firmware calls outside the schedule comes back as
an ordered trace of `Effect`s, so that "the start callback runs exactly
once" and "the timer is disabled" can be stated. These calls are:
- the actuator callbacks;
- the timer-interrupt enable and disable hooks;
- the error log;
- the tacho pin.

Several functions and constants live outside the modelled files and are
parameters:
- `angleToTimeMicroSecPerDegree`, `ignitionLimits`, `fastMap10Bit` and
  `ADC_FILTER`, and the 32/16 division `udiv_32_16`;
- `CRANK_ANGLE_MAX_INJ` / `CRANK_ANGLE_MAX_IGN`;
- the `globals.h` constants (`VALID_MAP_*`, `ERR_DEFAULT_MAP_*`,
  `VSS_SAMPLES`, `TACHO_SWEEP_*`).

Modules, one per file:
- `Machine` (machine.dfy): fixed-width stores, two's-complement casts, C
  truncating division and the Arduino `map` formula, plus the modular
  arithmetic lemmas the proofs share.
- `Board` (board.dfy): the AVR timer constants and the µs-to-tick
  conversion.
- `Scheduler` (scheduler.dfy): the records, arming, the compare-match
  handlers, cancellation, re-targeting and start-up.
- `ScheduleLifecycle` (schedule_lifecycle.dfy): runs of arbitrary
  operation sequences on one channel, and the invariants they keep.
- `ScheduleCalcs` (schedule_calcs.dfy): the angle and timeout arithmetic and
  the decoder's crank-angle correction.
- `Timers` (timers.dfy): the 1 ms tick.
- `Sensors` (sensors.dfy): the sensor arithmetic.

## Model

| member | source | states |
|---|---|---|
| `Board.UsToTicks` | speeduino/board_avr2560.h:137 | The tick count is the microseconds divided by four, rounded down: four ticks never exceed the time and the remainder is under one tick. |
| `Board.ArmTicks` | speeduino/scheduler.cpp:226-229 | An arming delay up to 262140 µs is the tick count of the timeout. A longer one is clamped to 65534 ticks instead of overflowing the 16-bit compare. The programmed delay is never later than asked. |
| `Board.CompareAfter` | speeduino/board_avr2560.h:16 | A compare value a number of ticks after a base is congruent to base plus ticks modulo 65536, and equal to it when no wrap occurs. |
| `Scheduler.NewFuelSchedule` | speeduino/scheduler.h:246-253 | A statically allocated fuel record starts OFF with an empty queue and null callbacks. |
| `Scheduler.NewIgnitionSchedule` | speeduino/scheduler.h:186-189 | An ignition record also starts with no end compare set by the decoder. |
| `Scheduler.DwellAverage` | speeduino/scheduler.h:75-76 | The weighted terms and their sum are 32-bit `long` values. While they fit, the dwell average lies between the new sample and the previous average, and it is a fixed point when the two are equal. |
| `Scheduler.DwellAverageWraps` | speeduino/scheduler.h:75-76 | A sample of 9,502,721 µs no longer fits a `long` once weighted, and the average of it with 0 comes out negative. |
| `Scheduler.SetFuelScheduleRunning` | speeduino/scheduler.cpp:222-239 | Arming sets the start compare the (clamped) timeout after the counter and the end compare the duration after the start. The compare register aims at the start, the status becomes PENDING and the timer is enabled. No other field changes. |
| `Scheduler.SetFuelScheduleNext` | speeduino/scheduler.cpp:241-248 | Queuing writes only the queue slot, whose start and end are the timeout and the duration after the counter. Status, compare and `duration` are unchanged, and an earlier queued event is overwritten. |
| `Scheduler.SetFuelScheduleNextIntended` | speeduino/scheduler.cpp:241-248 | The corrected queue also stores the queued width in `duration`. Everything else it writes is what the firmware writes. |
| `Scheduler.SetFuelSchedule` | speeduino/scheduler.h:265-275 | A non-RUNNING channel is armed. A RUNNING one gets a queued event, or is left entirely unchanged when the timeout does not fit the timer. A running event is never disturbed. |
| `Scheduler.SetIgnitionScheduleRunning` | speeduino/scheduler.cpp:251-293 | Same as fuel arming, except that an end compare already placed by the decoder is kept. |
| `Scheduler.SetIgnitionScheduleNext` | speeduino/scheduler.cpp:295-302 | Queuing an ignition event writes only the queue slot. |
| `Scheduler.SetIgnitionSchedule` | speeduino/scheduler.h:208-222 | The same three-way dispatch as for fuel. It never changes the status of a RUNNING ignition channel. |
| `Scheduler.FuelScheduleISR` | speeduino/scheduler.cpp:358-418 | PENDING runs the start callback once, becomes RUNNING and aims the compare the duration after the counter. RUNNING runs the end callback once, then either promotes the queue or goes OFF and disables the timer. OFF only disables the timer. At most one callback runs. |
| `Scheduler.DwellSample` | speeduino/scheduler.cpp:544 | The measured dwell is `micros() - startTime` in unsigned 32-bit arithmetic, read as a signed long. It is the true elapsed time when that is under 2^31 µs. |
| `Scheduler.IgnitionScheduleISR` | speeduino/scheduler.cpp:528-563 | PENDING starts the charge, records the start time, and aims at the decoder's end compare if set, otherwise at the duration. RUNNING fires once and clears the decoder flag. It counts one spark and averages the measured dwell. With a queued event, only its start compare is promoted and the queue emptied. Without one, the channel goes OFF and its timer is disabled. No other field changes. |
| `Scheduler.FuelInterrupt` | speeduino/scheduler.cpp:433-438 | A fuel channel's interrupt changes only that channel, and every call it makes is attributed to that channel. |
| `Scheduler.IgnitionInterrupt` | speeduino/scheduler.cpp:568-577 | An ignition channel's interrupt changes only that channel. |
| `Scheduler.DisablePendingFuelSchedule` | speeduino/scheduler.cpp:651-690 | Only a PENDING event on fuel channel `channel + 1` becomes OFF. RUNNING and OFF channels, all other channels and out-of-range indices are untouched. |
| `Scheduler.IgnCaseIndex` | speeduino/scheduler.cpp:691-728 | Switch cases 0-4 reach channels 1-5, cases 6-8 reach channels 6-8 when built in, and case 5 reaches nothing. |
| `Scheduler.DisablePendingIgnSchedule` | speeduino/scheduler.cpp:691-728 | The ignition cancellation as written: only a PENDING event on the channel the case selects is stopped. Index 5 is a no-op. |
| `Scheduler.DisablePendingIgnScheduleIntended` | speeduino/scheduler.cpp:691-728 | The corrected cancellation: index `channel` stops a PENDING event on channel `channel + 1`, like the fuel version. |
| `Scheduler.IgnitionCancelSkipsChannelSix` | speeduino/scheduler.cpp:691-728 | With index 5, a PENDING ignition channel 6 survives the as-written cancellation. The corrected version and the fuel version both stop channel 6. |
| `Scheduler.IgnitionCancelShiftedAboveFive` | speeduino/scheduler.cpp:691-728 | With index 6, the as-written cancellation stops channel 6 and leaves channel 7 PENDING. The corrected version does the opposite. |
| `Scheduler.RefreshIgnitionSchedule1` | speeduino/scheduler.cpp:305-316 | Only ignition channel 1 is re-targeted. Its end compare and compare register move to `timeToEnd` after the counter only when it is RUNNING and `timeToEnd` is shorter than its duration. |
| `Scheduler.RetargetDwell` | speeduino/scheduler.cpp:307-314 | On the record, re-targeting moves only the end compare and the compare register, and only under that same condition. |
| `Scheduler.ResetFuel` | speeduino/scheduler.cpp:76-184 | A reset fuel record is OFF with the do-nothing callbacks. Its compares and queue are kept. |
| `Scheduler.ResetIgnition` | speeduino/scheduler.cpp:82-184 | Same for ignition. |
| `Scheduler.InitialiseSchedulers` | speeduino/scheduler.cpp:88-220 | Every channel is reset and every channel angle cleared. Each channel's timer is enabled (ignition channel 5 twice), so the trace holds one enable more than there are channels. |
| `ScheduleLifecycle.ApplyFuel` | speeduino/scheduler.cpp:358-418 | One step of a fuel channel runs no callback and keeps RUNNING-ness, or runs the callback the status calls for and flips it. It never rebinds callbacks, never reaches STAGED and keeps the queue behind a RUNNING event. An event in flight has its timer enabled. |
| `ScheduleLifecycle.FuelCallbacksAlternate` | speeduino/scheduler.cpp:358-418 | Over any sequence of arms, matches and cancels, the injector callbacks alternate open/close. The channel ends RUNNING exactly when an odd number of them ran. |
| `ScheduleLifecycle.FuelRunsOwnCallbacks` | speeduino/scheduler.cpp:358-418 | Only the channel's own start and end callbacks ever run. |
| `ScheduleLifecycle.FuelQueueInvariant` | speeduino/scheduler.h:265-275 | An event is only ever queued behind a RUNNING one, and no run reaches STAGED. |
| `ScheduleLifecycle.FuelTimerEnabledWhileActive` | speeduino/scheduler.cpp:222-239 | Whenever an event is PENDING or RUNNING at the end of a run, the channel's timer interrupt is enabled. |
| `ScheduleLifecycle.FuelStaysOffWithoutArm` | speeduino/scheduler.h:22-25 | Schedules do not recur: an OFF channel that is never re-armed stays OFF and runs no callback. |
| `ScheduleLifecycle.FuelSingleEvent` | speeduino/scheduler.cpp:222-418 | Arm, match and match from idle produce exactly timer enable, open, close and timer disable. The injector stays open for the duration. |
| `ScheduleLifecycle.FuelQueuedEvent` | speeduino/scheduler.cpp:358-418 | An event queued while the injector is open runs next: it opens at the start compare it was queued for and closes once. Its close is aimed the first event's width after it opens, because the queue never stores the queued width. |
| `ScheduleLifecycle.QueuedWidthIgnored` | speeduino/scheduler.cpp:361-383 | When the two widths differ (each within one timer period), the queued pulse does not end the queued width after it opens. |
| `ScheduleLifecycle.FuelQueuedEventIntended` | speeduino/scheduler.cpp:241-248 | With the corrected queue, the promoted event opens at its queued start compare and ends the queued width after it opens. |
| `ScheduleLifecycle.IgnitionQueuedEvent` | speeduino/scheduler.cpp:528-556 | A queued ignition event is promoted at its queued start compare, but it charges for the first event's `duration`. |
| `ScheduleLifecycle.LastQueuedWins` | speeduino/scheduler.cpp:241-248 | Queuing twice keeps only the second request. |
| `ScheduleLifecycle.ApplyIgn` | speeduino/scheduler.cpp:528-563 | One ignition step, including re-targeting and the over-dwell cut, runs at most the callback its status calls for, and flips RUNNING-ness exactly when it runs one. It never rebinds callbacks or reaches STAGED, keeps the timer enabled for an event in flight, and never lowers the spark count. Unlike fuel, no queue invariant holds. |
| `ScheduleLifecycle.IgnitionCallbacksAlternate` | speeduino/scheduler.cpp:528-563 | The coil callbacks alternate charge/fire over any run, so a coil is never charged twice without firing. |
| `ScheduleLifecycle.IgnitionRunsOwnCallbacks` | speeduino/scheduler.cpp:528-563 | Only the channel's own coil callbacks run. |
| `ScheduleLifecycle.IgnitionTimerEnabledWhileActive` | speeduino/scheduler.cpp:251-293 | An ignition event in flight has its timer enabled, no run reaches STAGED, and the spark count never decreases. |
| `ScheduleLifecycle.OverDwellKeepsQueue` | speeduino/timers.cpp:61-67 | The over-dwell cut leaves a queued event on an OFF coil. After re-arming and one spark, that stale event is promoted. |
| `ScheduleCalcs.InjectorStartAngleRef` | speeduino/schedule_calcs.hpp:9-34 | The reference start angle lies in `[0, MAX]`, is congruent to the opening angle, and is positive exactly when the opening angle is. |
| `ScheduleCalcs.InjectorStartAngleRefUnique` | speeduino/schedule_calcs.hpp:9-34 | Those properties determine the reference angle uniquely. |
| `ScheduleCalcs.CalculateInjectorStartAngle` | speeduino/schedule_calcs.hpp:9-34 | The two loops return the reference angle of `injAngle + channel - pwDegrees`. It lies in `[0, MAX]` and is never negative, even when the pulse is longer than the angle. |
| `ScheduleCalcs.TimeoutCore` | speeduino/schedule_calcs.hpp:36-52 | A target ahead of the crank gives the time to reach it. A missed target gives 0, unless the channel is RUNNING and less than a cycle behind, when it is reached one cycle later. |
| `ScheduleCalcs.AdjustToInjChannel` | speeduino/schedule_calcs.hpp:54-58 | For in-cycle angle and offset, the adjusted angle is in `[0, MAX)` and is `(angle - offset) mod MAX`. |
| `ScheduleCalcs.AdjustToIgnChannel` | speeduino/schedule_calcs.hpp:121-125 | The ignition adjustment agrees with the injection one on in-cycle inputs. |
| `ScheduleCalcs.AdjustRoundTrip` | speeduino/schedule_calcs.hpp:54-58 | Adjusting to a channel and rotating back by its offset returns the original angle. |
| `ScheduleCalcs.UnadjustRoundTrip` | speeduino/schedule_calcs.hpp:54-58 | Rotating forward and adjusting again returns the original angle. |
| `ScheduleCalcs.CalculateInjectorTimeout` | speeduino/schedule_calcs.hpp:60-66 | With offset 0 the timeout is the unadjusted forward distance, or 0 for a missed window on a channel that is not RUNNING. |
| `ScheduleCalcs.InjectorTimeoutIsForwardDistance` | speeduino/schedule_calcs.hpp:36-66 | For any in-cycle offset, a RUNNING channel's timeout is the time for the forward distance `(open - crank) mod MAX`. Any other channel gets that value when the opening angle does not lie before the crank angle, both measured from the channel's offset. Otherwise it gets 0, so here the offset does matter. |
| `ScheduleCalcs.CalculateIgnitionTimeout` | speeduino/schedule_calcs.hpp:127-133 | Same for ignition with offset 0. |
| `ScheduleCalcs.IgnitionTimeoutIsForwardDistance` | speeduino/schedule_calcs.hpp:104-133 | For a RUNNING channel, the ignition timeout is the forward distance from the crank to the dwell start, whatever the offset. Any other channel gets that distance when the dwell start does not lie before the crank angle, both measured from the offset, and 0 otherwise. |
| `ScheduleCalcs.CalculateIgnitionAngle` | speeduino/schedule_calcs.hpp:77-94 | The spark angle is congruent to offset minus advance (offset 0 meaning a full cycle), and is at most one cycle. It is offset minus advance, reduced by one cycle exactly when that lies beyond the cycle. The dwell start is the spark minus the dwell, raised by one cycle exactly when that is negative, and lies in `[0, cycle]` whenever the spark does. |
| `ScheduleCalcs.IgnitionAngleExamples` | speeduino/schedule_calcs.hpp:77-94 | On 360 degrees with 20 degrees of dwell: 10 degrees of advance gives (350, 330), and 20 degrees of retard gives (20, 0). |
| `ScheduleCalcs.CalculateIgnitionTrailingRotary` | speeduino/schedule_calcs.hpp:96-102 | The trailing spark is lead plus split, not normalised. Its dwell start precedes it by the dwell modulo the cycle and is in the cycle after one correction each way. |
| `ScheduleCalcs.AdjustCrankAngle` | speeduino/schedule_calcs.hpp:231-260 | RUNNING: only the compare register moves to the corrected end. Otherwise, after more than 6 revolutions, only the end compare is set and marked as the decoder's. Before that nothing changes. |
| `ScheduleCalcs.DecoderEndCompareHonoured` | speeduino/schedule_calcs.hpp:231-260 | An end compare placed by the decoder is where the next dwell ends once the channel is armed and starts charging. |
| `Timers.AdvanceLoops` | speeduino/timers.cpp:80-251 | Every tick raises the 1 kHz flag and keeps each counter below its period. Each slower flag is raised exactly when its counter reaches the period. |
| `Timers.LoopsAfterCount` | speeduino/timers.cpp:49-59 | After `n` ticks from initialisation, each counter holds `n` modulo its period. |
| `Timers.FlagPeriods` | speeduino/timers.cpp:168-251 | Tick `n` raises the 200, 30, 15, 10, 4 and 1 Hz flags exactly when `n` is a multiple of 5, 33, 66, 100, 250 and 1000. |
| `Timers.ApplyOverDwellCheck` | speeduino/timers.cpp:61-67 | A coil charging since before the target fires once and goes OFF. Nothing else changes, and any other coil is untouched. |
| `Timers.OverDwellTarget` | speeduino/timers.cpp:92 | The target is `micros()` minus the dwell limit in unsigned 32-bit arithmetic. |
| `Timers.OverDwellMeansLongDwell` | speeduino/timers.cpp:61-96 | Away from the clock wrap, a coil is cut exactly when it has been charging longer than the dwell limit. |
| `Timers.OverDwellFrom` | speeduino/timers.cpp:94-118 | The pass applies the check to each channel in order. Every channel RUNNING since before the target has its end callback called. Each call it makes is a fire on a RUNNING channel it switched OFF. |
| `Timers.OverDwellLeavesNoLongDwell` | speeduino/timers.cpp:94-118 | After the pass no coil is still charging from before the target, and every channel is unchanged or switched OFF. |
| `Timers.OverDwellPass` | speeduino/timers.cpp:92-118 | With the dwell limit enabled and the engine not crank-locked, every coil charging from before `micros()` minus the limit is fired, and none is left charging from before then. Otherwise nothing changes. Either way, each call fires a coil that was charging and is now OFF, and each channel is unchanged or switched OFF. |
| `Timers.SweepIncrement` | speeduino/timers.cpp:127-128 | The amount added is between 0 and the increment. It is 0 at power-on and the full increment once the ramp time is over. |
| `Timers.SweepStep` | speeduino/timers.cpp:121-137 | The sweep stops once the engine turns or the sweep time is over. Otherwise the increment is added. Reaching 1000 makes a tacho pulse READY and takes 1000 off; below 1000 the flag is left alone. |
| `Timers.SweepConserves` | speeduino/timers.cpp:121-137 | Over any run of sweep milliseconds, the accumulator plus 1000 per READY pulse equals the start value plus everything added. The accumulator stays under 1000. |
| `Timers.TachoStep` | speeduino/timers.cpp:140-165 | READY drives the pin low and sets the end time, or skips the pulse on half-speed tacho. The alternation flag toggles either way. ACTIVE releases the pin exactly when the counter's low byte reaches the end. |
| `Timers.TachoPulseWidth` | speeduino/timers.cpp:157-165 | A pulse with duration `d` (1-255) stays low for `d - 1` milliseconds and is released on the `d`-th, with no other output. |
| `Timers.TachoReadyPulseLasts` | speeduino/timers.cpp:140-165 | On full-speed tacho a READY pulse lasts exactly `tachoDuration` milliseconds. |
| `Timers.TenHz` | speeduino/timers.cpp:217-235 | The RPM rate of change is ten times the change over the last 100 ms, and the reference RPM moves on. The engine-run time counts up while running and resets otherwise, and the tenths-of-a-second counter advances. Nothing else changes. |
| `Timers.TenHzRunCounts` | speeduino/timers.cpp:226-235 | Over consecutive 10 Hz updates, the tenths counter counts the updates. The run time counts the updates since the engine last stopped. The rate of change is ten times the change between the last two samples. |
| `Timers.InitialiseTimers` | speeduino/timers.cpp:49-59 | Initialisation zeroes the counters (so the loop invariant holds) and the RPM reference, and idles the tacho. Nothing else changes: the millisecond counter, the sweep, the tacho end time and toggle, and the 10 Hz values are kept. |
| `Timers.TickTimers` | speeduino/timers.cpp:79-267 | A tick advances the millisecond counter. It advances the loop counters and raises exactly the flags they raise. The sweep runs on the new millisecond count, and the tacho output acts on the flag the sweep leaves. The tacho pin writes are the tacho step's. The RPM rate is updated exactly on the 10 Hz tick. |
| `Timers.Tick` | speeduino/timers.cpp:79-267 | A tick adds to the mask exactly the flags the loop counters raise, always the 1 kHz one. Its timer state is the timer part's and its coils are the over-dwell pass's. Its effects are the over-dwell coil calls, then the tacho pin writes, in order. |
| `Timers.TickEffects` | speeduino/timers.cpp:92-165 | The effects of one interrupt, in order: the over-dwell coil calls, then the tacho pin writes. |
| `Timers.TimersAfterLoops` | speeduino/timers.cpp:49-90 | After initialisation and `n` ticks, the loop counters are those of `n` counter advances from zero. |
| `Timers.TickFlagsFollowPeriods` | speeduino/timers.cpp:168-251 | Counting from initialisation, the `n`-th full tick raises the 200, 30, 15, 10, 4 and 1 Hz flags exactly when `n` is a multiple of 5, 33, 66, 100, 250 and 1000. |
| `Sensors.VssPulse` | speeduino/sensors.cpp:940-947 | The index advances cyclically within `VSS_SAMPLES`, and only the new slot is written, with `now`. |
| `Sensors.VssGetPulseGap` | speeduino/sensors.cpp:770-783 | The gap is the difference, modulo 2^32, between slot `index - h` and the slot before it, both read around the ring. |
| `Sensors.GapAfterPulse` | speeduino/sensors.cpp:770-783 | Right after a pulse, the newest gap is the time since the previous pulse. |
| `Sensors.ReadTpsCalibrated` | speeduino/sensors.cpp:573-593 | TPS lies in `[0, 200]` for normal and reversed wiring. It reads 0 and 200 at and beyond the calibration points. |
| `Sensors.TpsMonotone` | speeduino/sensors.cpp:573-593 | TPS is nondecreasing in the ADC value for normal wiring and nonincreasing for reversed wiring. |
| `Sensors.TpsReversedIsMirrored` | speeduino/sensors.cpp:580-593 | Reversed wiring reads the same as normal wiring with the ADC value and calibration points mirrored. |
| `Sensors.ValidateMap` | speeduino/sensors.cpp:198-222 | Below range: low default and one more error. Above: high default and one more error. In range: kept, error count reset and both errors cleared when any is logged. |
| `Sensors.ValidatedMapIsSafe` | speeduino/sensors.cpp:198-222 | A validated MAP is in range or a default, and validation is idempotent on in-range values. The error count is reset exactly when the value is in range, or when the 8-bit counter wraps from 255. |
| `Sensors.InstantaneousMapReading` | speeduino/sensors.cpp:224-270 | The previous MAP and time are kept. An out-of-range reading counts an error. The ADC value is filtered after start-up. The MAP is its calibration, or 0 when that is negative. |
| `Sensors.MapReadsChain` | speeduino/sensors.cpp:224-250 | Over two reads, the second keeps the first one's MAP and time as the previous ones. Two bad readings count two errors, a good second one clears them, and before start-up the second MAP ignores the first reading. |
| `Sensors.MinSample` | speeduino/sensors.cpp:381-384 | A valid reading lowers the running minimum to itself; anything else leaves it. |
| `Sensors.ReadMapCycleMinimum` | speeduino/sensors.cpp:368-409 | Within the cycle, only the running minimum or the error count changes. When the cycle closes, the minimum becomes the validated MAP and sampling restarts at 1023. Below the switch point the read is instantaneous. |
| `Sensors.CycleMinimum` | speeduino/sensors.cpp:368-409 | Over a cycle the running value never increases and is at most every valid reading. It is the start value or one of the readings. |
| `Sensors.InBandMeansClose` | speeduino/sensors.cpp:828-847 | Away from the 16-bit wrap, the gear band is the open interval of half-width `hysteresis` around the ratio. |
| `Sensors.GetGear` | speeduino/sensors.cpp:828-847 | Stationary is gear 0. Otherwise it is the first gear whose band contains the measured ratio, or the previous gear when none does. |
| `Sensors.GetPressure` | speeduino/sensors.cpp:849-899 | A disabled sensor reads 0. An enabled one reads its filtered calibration clamped to `[0, max]`. |
| `Sensors.PressureMonotone` | speeduino/sensors.cpp:864-868 | A higher smoothed pressure never reads lower after the clamps. |

## Left out

- Interrupt vectors, the per-board `#if` channel variants and `noInterrupts()` sections: every arming, cancel and interrupt is one atomic step. Preemption is not modelled.
- `beginInjectorPriming` and its call on the 10 Hz tick need a table lookup. Also left out: the hardware-test pulses of the 30 Hz block, and the status LED, status outputs and debug printing of the 1 Hz block.
- The callback bodies and timer hooks are only recorded in the trace. The register macros of board_avr2560.h are reduced to the three constants used.
- `micros()` and `ms_counter` wrap-around: time is an input. The unsigned comparison `startTime < target` in the over-dwell check is modelled as written but not analysed across the 32-bit wrap.
- `ScheduleCalcs.CalculateInjectorStartAngle`: requires `pwDegrees + CRANK_ANGLE_MAX_INJ <= 65536`. For a longer pulse the first loop of the source adds cycles in 16-bit arithmetic and need not terminate.
- `Timers.SweepStep`: requires a nonzero ramp time, as `TACHO_SWEEP_RAMP_MS` is a positive constant in the firmware.
- `Sensors.ReadTpsCalibrated`: requires distinct calibration points, because equal points would make `map` divide by zero.
- `Scheduler.DwellAverage`, `Timers.TenHz`: the widths of `actualDwell`, `ignitionCount`, `rpmDOT`, `runSecsX10` and `seclx10` are declared in `globals.h`, which is not part of this model. They are unbounded integers here. The 32-bit `long` arithmetic inside the dwell average is modelled. Its between-the-inputs property is stated only while the weighted terms fit, which excludes samples above 9,502,720 µs.
- `ScheduleLifecycle.IgnitionQueuedEvent`: the ignition queue loses the queued dwell as the fuel queue loses the queued width. No correction is modelled for it, because the re-targeting path reads the running event's `duration`, so storing the queued dwell at queue time is not a safe fix.
- `Scheduler.InitialiseSchedulers`: `reset()` enables each channel's timer. The comments around it suggest turning schedules off, but the code is followed.
- `Timers.ApplyOverDwellCheck`: the cut does not disable the timer or clear the queue, as written. See `ScheduleLifecycle.OverDwellKeepsQueue`.
- MAP sampling modes 0, 1 and 3 (other than the instantaneous read they share), EMAP, `getSpeed`, the closed-throttle switch of `readTPS`, ADC acquisition, the table-based temperature sensors, baro persistence, and the flex and knock interrupts.
- `acc_mc33810`, `auxiliaries.h`, `comms_CAN.h` and `speeduino.h` are drivers, pin macros and declarations only.

## Findings

| source | as written | input that shows it | evidently intended | confidence | as-written member | corrected member |
|---|---|---|---|---|---|---|
| speeduino/scheduler.cpp:691-728 | `disablePendingIgnSchedule` switches on cases 0-4 and 6-8, with no case 5, so index `k` reaches channel `k + 1` only for `k <= 4`. | `channel = 5` with ignition channel 6 PENDING: channel 6 stays PENDING. `channel = 6` cancels channel 6 instead of 7. | 0-based indexing as in `disablePendingFuelSchedule`: index `k` cancels channel `k + 1`. | not executed | `Scheduler.DisablePendingIgnSchedule` (shown by `Scheduler.IgnitionCancelSkipsChannelSix`, `Scheduler.IgnitionCancelShiftedAboveFive`) | `Scheduler.DisablePendingIgnScheduleIntended` |
| speeduino/scheduler.cpp:241-248 | `_setFuelScheduleNext` stores only the queued start and end compares. The handler opens the promoted event and aims its close `duration` after the counter, reading the first event's width. The promoted end compare is never read. | Arm a 4000 µs pulse, then queue an 8000 µs pulse while the first injector is open. The second pulse closes 1000 ticks after it opens, not 2000. | The queued event runs with its own width. | not executed | `ScheduleLifecycle.FuelQueuedEvent` (shown by `ScheduleLifecycle.QueuedWidthIgnored`) | `Scheduler.SetFuelScheduleNextIntended` (proved by `ScheduleLifecycle.FuelQueuedEventIntended`) |

=== FILE: board.dfy ===
/**
  The timer parameters of the ATmega2560 board: 16-bit compare registers
  clocked at one tick per 4 microseconds.
 */
module Board {
  import opened Machine

  /** Longest delay, in microseconds, one 16-bit compare can represent (65535 * 4). */
  const MAX_TIMER_PERIOD: int := 262140

  /** Microseconds to timer ticks: a right shift by two. */
  function UsToTicks(us: u32): (t: nat)
    ensures 4 * t <= us < 4 * t + 4
  {
    us / 4
  }

  /**
    The tick delay an arming call programs for `timeout`: delays beyond the
    longest representable period are clamped one microsecond short of it
    rather than overflowing the 16-bit compare value.
   */
  function ArmTicks(timeout: u32): (t: u16)
    ensures timeout <= MAX_TIMER_PERIOD ==> 4 * t <= timeout < 4 * t + 4
    ensures timeout > MAX_TIMER_PERIOD ==> t == UsToTicks(MAX_TIMER_PERIOD - 1) == 65534
    ensures 4 * t <= timeout
  {
    if timeout > MAX_TIMER_PERIOD then UsToTicks(MAX_TIMER_PERIOD - 1) else UsToTicks(timeout)
  }

  /** A 16-bit compare value `ticks` after `base`, wrapping like the hardware counter. */
  function CompareAfter(base: u16, ticks: int): (c: u16)
    ensures (c - base - ticks) % U16_MOD == 0
    ensures 0 <= ticks && base + ticks < U16_MOD ==> c == base + ticks
  {
    ToU16(base + ticks)
  }
}

=== FILE: machine.dfy ===
/**
  Fixed-width integer behaviour of the 8-bit AVR target.

  Dafny integers are unbounded; every truncating store, two's-complement cast
  and C division the firmware relies on is written out here once and used by
  the other modules.
 */
module Machine {

  const U8_MOD: int := 0x100
  const U16_MOD: int := 0x1_0000
  const U32_MOD: int := 0x1_0000_0000

  type u8 = x: int | 0 <= x < 0x100
  type u16 = x: int | 0 <= x < 0x1_0000
  type u32 = x: int | 0 <= x < 0x1_0000_0000
  type i8 = x: int | -0x80 <= x < 0x80
  /** `int16_t`, and also the AVR's plain `int`. */
  type i16 = x: int | -0x8000 <= x < 0x8000

  /** Store into a `uint8_t`. */
  function ToU8(x: int): (r: u8)
    ensures 0 <= x < U8_MOD ==> r == x
    ensures (r - x) % U8_MOD == 0
  {
    x % U8_MOD
  }

  /** Store into a `uint16_t` (also the AVR's `unsigned int`). */
  function ToU16(x: int): (r: u16)
    ensures 0 <= x < U16_MOD ==> r == x
    ensures (r - x) % U16_MOD == 0
  {
    x % U16_MOD
  }

  /** Store into a `uint32_t` / `unsigned long`. */
  function ToU32(x: int): (r: u32)
    ensures 0 <= x < U32_MOD ==> r == x
    ensures (r - x) % U32_MOD == 0
  {
    x % U32_MOD
  }

  /** Two's-complement conversion to `int8_t`. */
  function ToInt8(x: int): (r: i8)
    ensures -0x80 <= r < 0x80
    ensures -0x80 <= x < 0x80 ==> r == x
    ensures (r - x) % U8_MOD == 0
  {
    var u := x % U8_MOD;
    if u < 0x80 then u else u - U8_MOD
  }

  /** Two's-complement conversion to `int16_t`. */
  function ToInt16(x: int): (r: i16)
    ensures -0x8000 <= r < 0x8000
    ensures -0x8000 <= x < 0x8000 ==> r == x
    ensures (r - x) % U16_MOD == 0
  {
    var u := x % U16_MOD;
    if u < 0x8000 then u else u - U16_MOD
  }

  /** Two's-complement conversion to `int32_t` (the AVR's `long`). */
  function ToInt32(x: int): (r: int)
    ensures -0x8000_0000 <= r < 0x8000_0000
    ensures -0x8000_0000 <= x < 0x8000_0000 ==> r == x
    ensures (r - x) % U32_MOD == 0
  {
    var u := x % U32_MOD;
    if u < 0x8000_0000 then u else u - U32_MOD
  }

  /** C integer division, which truncates toward zero. */
  function DivTrunc(a: int, b: int): (q: int)
    requires b != 0
    ensures a >= 0 && b > 0 ==> q == a / b
    ensures a >= 0 && b > 0 ==> q * b <= a < q * b + b
  {
    if (a >= 0) == (b > 0) then
      (if a >= 0 then a else -a) / (if b > 0 then b else -b)
    else
      -((if a >= 0 then a else -a) / (if b > 0 then b else -b))
  }

  /**
    The Arduino core's `map(x, inMin, inMax, outMin, outMax)`: linear
    rescaling in `long` arithmetic with truncating division. The Arduino core
    is not part of this model; this follows its published definition.
   */
  function ArduinoMap(x: int, inMin: int, inMax: int, outMin: int, outMax: int): (r: int)
    requires inMax != inMin
    ensures inMin < inMax && inMin <= x <= inMax && outMin <= outMax ==> outMin <= r <= outMax
    ensures x == inMin ==> r == outMin
    ensures inMin < inMax && x == inMax && outMin <= outMax ==> r == outMax
  {
    var a := x - inMin;
    var k := outMax - outMin;
    var d := inMax - inMin;
    if a == 0 then
      assert a * k == 0;
      DivTrunc(a * k, d) + outMin
    else if a == d && 0 < d && 0 <= k then
      MulDiv(d, k);
      DivTrunc(a * k, d) + outMin
    else if 0 < a <= d && 0 <= k then
      MulBounds(a, d, k);
      DivBounds(a * k, d, k);
      DivTrunc(a * k, d) + outMin
    else
      DivTrunc(a * k, d) + outMin
  }

  /** Nondecreasing in `x` over a forward calibration range. */
  lemma ArduinoMapMonotone(x: int, y: int, inMin: int, inMax: int, outMin: int, outMax: int)
    requires inMin < inMax && outMin <= outMax
    requires inMin <= x <= y <= inMax
    ensures ArduinoMap(x, inMin, inMax, outMin, outMax) <= ArduinoMap(y, inMin, inMax, outMin, outMax)
  {
    var d := inMax - inMin;
    var k := outMax - outMin;
    MulBounds(x - inMin, d, k);
    MulBounds(y - inMin, d, k);
    MulBounds(y - x, d, k);
    assert (y - inMin) * k == (x - inMin) * k + (y - x) * k;
    DivMonotone((x - inMin) * k, (y - inMin) * k, d);
  }

  lemma MulDiv(d: int, k: int)
    requires d > 0
    ensures (d * k) / d == k
  {
    MultipleMod(d, k);
    assert d * k == d * ((d * k) / d) + (d * k) % d;
    assert d * (k - (d * k) / d) == 0;
  }

  /** `0 <= a*k <= d*k` for `0 <= a <= d` and `k >= 0`. */
  lemma MulBounds(a: int, d: int, k: int)
    requires 0 <= a <= d && 0 <= k
    ensures 0 <= a * k <= d * k
  {
    assert d * k == a * k + (d - a) * k;
  }

  lemma DivBounds(n: int, d: int, k: int)
    requires d > 0 && k >= 0 && 0 <= n <= d * k
    ensures 0 <= n / d <= k
  {
    var q := n / d;
    assert n == d * q + n % d;
  }

  lemma DivMonotone(a: int, b: int, d: int)
    requires 0 <= a <= b && d > 0
    ensures a / d <= b / d
  {
    var qa, qb := a / d, b / d;
    assert a == d * qa + a % d;
    assert b == d * qb + b % d;
    if qa > qb {
      MulMonotone(d, qb + 1, qa);
      assert false;
    }
  }

  lemma MulMonotone(d: int, x: int, y: int)
    requires d >= 0 && x <= y
    ensures d * x <= d * y
  {
    assert d * y - d * x == d * (y - x);
  }

  /** The only value in `[0, m)` congruent to `v` modulo `m` is `v % m`. */
  lemma ModUnique(r: int, v: int, m: int)
    requires m > 0 && 0 <= r < m && (r - v) % m == 0
    ensures r == v % m
  {
    var k := (r - v) / m;
    assert r - v == m * k;
    var q := v / m;
    assert v == m * q + v % m;
    assert r - v % m == m * (k + q);
    if k + q > 0 {
      MulMonotone(m, 1, k + q);
      assert false;
    } else if k + q < 0 {
      MulMonotone(m, k + q, -1);
      assert false;
    }
  }

  /** Adding a multiple of `m` does not change a residue. */
  lemma ModShift(x: int, m: int, j: int)
    requires m > 0
    ensures (x + m * j) % m == x % m
  {
    var q := x / m;
    assert x == m * q + x % m;
    assert x % m - (x + m * j) == m * (-(q + j));
    MultipleMod(m, -(q + j));
    ModUnique(x % m, x + m * j, m);
  }

  /** A multiple of `m` leaves no remainder. */
  lemma MultipleMod(m: int, t: int)
    requires m > 0
    ensures (m * t) % m == 0
  {
    var d := (m * t) / m;
    var r := (m * t) % m;
    assert m * t == m * d + r;
    assert r == m * (t - d);
    if t - d > 0 {
      MulMonotone(m, 1, t - d);
      assert false;
    } else if t - d < 0 {
      MulMonotone(m, t - d, 0);
      assert false;
    }
  }

  /** `d - d % m` is a multiple of `m`, so `d % m` is congruent to `d`. */
  lemma DivDecompose(d: int, m: int)
    requires m > 0
    ensures (d % m - d) % m == 0
  {
    assert d == m * (d / m) + d % m;
    assert d % m - d == m * (-(d / m));
    MultipleMod(m, -(d / m));
  }

  /** The residue of a successor: one more, or zero on reaching the modulus. */
  lemma ModSucc(n: int, p: int)
    requires p > 0
    ensures (n + 1) % p == (if n % p == p - 1 then 0 else n % p + 1)
  {
    DivDecompose(n, p);
    var r := if n % p == p - 1 then 0 else n % p + 1;
    if n % p == p - 1 {
      assert r - (n + 1) == (n % p - n) + p * (-1);
      ModShift(n % p - n, p, -1);
    } else {
      assert r - (n + 1) == n % p - n;
    }
    ModUnique(r, n + 1, p);
  }

  /** Truncating to 32 bits does not change the low byte. */
  lemma LowByteOfU32(x: int)
    ensures ToU8(ToU32(x)) == ToU8(x)
  {
    var q := x / U32_MOD;
    assert x == U32_MOD * q + ToU32(x);
    assert ToU32(x) == x + U8_MOD * (-0x100_0000 * q);
    ModShift(x, U8_MOD, -0x100_0000 * q);
  }

  /** The residue of a value within one modulus of `[0, m)`. */
  lemma SmallMod(x: int, m: int)
    requires m > 0 && -m <= x < 2 * m
    ensures x % m == (if x < 0 then x + m else if x >= m then x - m else x)
  {
    MultipleMod(m, 0);
    MultipleMod(m, 1);
    MultipleMod(m, -1);
    var r := if x < 0 then x + m else if x >= m then x - m else x;
    ModUnique(r, x, m);
  }
}

=== FILE: schedule_calcs.dfy ===
/**
  The angle and timeout arithmetic that turns the engine's target angles into
  the arguments of the arming calls, and the decoder's late correction of a
  running ignition event.

  `maxInj` / `maxIgn` stand for `CRANK_ANGLE_MAX_INJ` / `CRANK_ANGLE_MAX_IGN`
  (the length of one injection or ignition cycle in crank degrees, 45 to
  720). The conversion `angleToTimeMicroSecPerDegree` and the clamp
  `ignitionLimits` belong to the crank maths, which is not part of this model;
  they are parameters.
 */
module ScheduleCalcs {
  import opened Machine
  import opened Board
  import opened Scheduler

  // ---------------------------------------------------------------------------
  // Injector start angle

  /**
    The reference definition of the injection start angle: the opening angle
    `d` reduced into `[0, m]`, where a positive angle that is a whole number of
    cycles maps to `m` and a non-positive one to its residue.
   */
  function InjectorStartAngleRef(d: int, m: int): (r: int)
    requires m > 0
    ensures 0 <= r <= m
    ensures (r - d) % m == 0
    ensures d > 0 ==> r > 0
    ensures d <= 0 ==> r < m
  {
    if d <= 0 then
      DivDecompose(d, m);
      d % m
    else
      DivDecompose(d - 1, m);
      (d - 1) % m + 1
  }

  /** The four properties above pin the reference angle down. */
  lemma InjectorStartAngleRefUnique(s: int, d: int, m: int)
    requires m > 0 && 0 <= s <= m && (s - d) % m == 0
    requires d > 0 ==> s > 0
    requires d <= 0 ==> s < m
    ensures s == InjectorStartAngleRef(d, m)
  {
    if d <= 0 {
      ModUnique(s, d, m);
    } else {
      assert (s - 1) - (d - 1) == s - d;
      ModUnique(s - 1, d - 1, m);
    }
  }

  /**
    `calculateInjectorStartAngle`: the crank angle at which the injector must
    open so that a pulse of `pwDegrees` ends at `injAngle` on the channel
    offset `injChannelDegrees`, computed in 16-bit unsigned arithmetic by
    adding whole cycles until the subtraction cannot underflow and then
    removing whole cycles until the angle is at most one cycle. The result is
    the reference angle of `injAngle + injChannelDegrees - pwDegrees`.
   */
  method CalculateInjectorStartAngle(pwDegrees: u16, injChannelDegrees: i16, injAngle: u16, maxInj: int)
    returns (startAngle: u16)
    requires 0 < maxInj <= 720
    requires pwDegrees + maxInj <= U16_MOD
    ensures startAngle == InjectorStartAngleRef(ToU16(injAngle + ToU16(injChannelDegrees)) - pwDegrees, maxInj)
    ensures 0 <= startAngle <= maxInj
    ensures 0 <= injAngle + injChannelDegrees < U16_MOD ==>
              (startAngle - (injAngle + injChannelDegrees - pwDegrees)) % maxInj == 0
  {
    var base := ToU16(injAngle + ToU16(injChannelDegrees));
    var angle: u16 := base;
    ghost var cycles: nat := 0;
    while angle < pwDegrees
      invariant angle == base + maxInj * cycles
      invariant base < pwDegrees ==> angle < pwDegrees + maxInj
      invariant base >= pwDegrees ==> angle == base
      decreases pwDegrees - angle
    {
      angle := ToU16(angle + maxInj);
      cycles := cycles + 1;
    }
    angle := angle - pwDegrees;
    ghost var d := base - pwDegrees;
    assert angle - d == maxInj * cycles;
    MultipleMod(maxInj, cycles);
    while angle > maxInj
      invariant 0 <= angle
      invariant (angle - d) % maxInj == 0
      invariant d > 0 ==> angle > 0
      invariant d <= 0 ==> angle < maxInj
      decreases angle
    {
      ModShift(angle - d, maxInj, -1);
      assert angle - d + maxInj * -1 == (angle - maxInj) - d;
      angle := angle - maxInj;
    }
    InjectorStartAngleRefUnique(angle, d, maxInj);
    if 0 <= injAngle + injChannelDegrees < U16_MOD {
      WrappedSum(injAngle, injChannelDegrees);
    }
    startAngle := angle;
  }

  /** Adding a signed offset through its unsigned cast gives the true sum when that fits. */
  lemma WrappedSum(a: u16, c: i16)
    requires 0 <= a + c < U16_MOD
    ensures ToU16(a + ToU16(c)) == a + c
  {
    if c < 0 {
      ModShift(a + c, U16_MOD, 1);
      MultipleMod(U16_MOD, 0);
      ModUnique(a + c, a + c, U16_MOD);
    }
  }

  // ---------------------------------------------------------------------------
  // Angle to timeout

  /**
    The shared core of `_calculateInjectorTimeout` and
    `_calculateIgnitionTimeout`: the angle still to turn from `crankAngle` to
    `targetAngle`, taken as a 16-bit signed difference. A target already
    passed is reached one cycle later when the channel is RUNNING (and less
    than a cycle behind); otherwise the event is due now (timeout 0).
   */
  function TimeoutCore(status: Status, targetAngle: int, crankAngle: int, maxAngle: int, toTime: int -> u32): (t: u32)
    requires 0 < maxAngle <= 720
    ensures 0 <= targetAngle - crankAngle < 0x8000 ==> t == toTime(targetAngle - crankAngle)
    ensures -0x8000 <= targetAngle - crankAngle < 0 && status != Running ==> t == 0
    ensures -maxAngle < targetAngle - crankAngle < 0 && status == Running ==>
              t == toTime(targetAngle - crankAngle + maxAngle)
    ensures -0x8000 <= targetAngle - crankAngle <= -maxAngle ==> t == 0
  {
    var delta := ToInt16(targetAngle - crankAngle);
    if delta < 0 then
      if status == Running && delta > -maxAngle then toTime(delta + maxAngle) else 0
    else toTime(delta)
  }

  /**
    `_adjustToInjChannel`: an angle re-expressed relative to the channel's
    offset, in the AVR's 16-bit `int`, brought back into the cycle once.
   */
  function AdjustToInjChannel(angle: i16, channelDegrees: i16, maxInj: int): (a: i16)
    requires 0 < maxInj <= 720
    ensures 0 <= angle < maxInj && 0 <= channelDegrees < maxInj ==>
              0 <= a < maxInj && a == (angle - channelDegrees) % maxInj
  {
    var a := ToInt16(angle - channelDegrees);
    MultipleMod(maxInj, 0);
    MultipleMod(maxInj, 1);
    if a < 0 then
      if 0 <= angle < maxInj && 0 <= channelDegrees < maxInj then
        ModUnique(a + maxInj, angle - channelDegrees, maxInj);
        ToInt16(a + maxInj)
      else
        ToInt16(a + maxInj)
    else
      if 0 <= angle < maxInj && 0 <= channelDegrees < maxInj then
        ModUnique(a, angle - channelDegrees, maxInj);
        a
      else
        a
  }

  /** `_adjustToIgnChannel`: as for injection, but returned as `uint16_t`. */
  function AdjustToIgnChannel(angle: i16, channelDegrees: i16, maxIgn: int): (a: u16)
    requires 0 < maxIgn <= 720
    ensures 0 <= angle < maxIgn && 0 <= channelDegrees < maxIgn ==>
              a == AdjustToInjChannel(angle, channelDegrees, maxIgn)
  {
    var a := ToInt16(angle - channelDegrees);
    if a < 0 then ToU16(a + maxIgn) else ToU16(a)
  }

  /** Undoes a channel adjustment: rotates an angle forward by the channel offset. */
  function UnadjustChannel(a: int, channelDegrees: int, maxAngle: int): (angle: int)
    requires maxAngle > 0
    ensures 0 <= angle < maxAngle
  {
    (a + channelDegrees) % maxAngle
  }

  /** Adjusting to a channel and back is the identity on in-cycle angles. */
  lemma AdjustRoundTrip(angle: i16, channelDegrees: i16, maxInj: int)
    requires 0 < maxInj <= 720
    requires 0 <= angle < maxInj && 0 <= channelDegrees < maxInj
    ensures UnadjustChannel(AdjustToInjChannel(angle, channelDegrees, maxInj), channelDegrees, maxInj) == angle
  {
    var a := AdjustToInjChannel(angle, channelDegrees, maxInj);
    DivDecompose(angle - channelDegrees, maxInj);
    assert (angle - (a + channelDegrees)) % maxInj == 0 by {
      assert angle - (a + channelDegrees) == -((a - (angle - channelDegrees)));
      NegMod(a - (angle - channelDegrees), maxInj);
    }
    ModUnique(angle, a + channelDegrees, maxInj);
  }

  /** Unadjusting and adjusting again is the identity too. */
  lemma UnadjustRoundTrip(a: i16, channelDegrees: i16, maxInj: int)
    requires 0 < maxInj <= 720
    requires 0 <= a < maxInj && 0 <= channelDegrees < maxInj
    ensures AdjustToInjChannel(UnadjustChannel(a, channelDegrees, maxInj) as i16, channelDegrees, maxInj) == a
  {
    var u := UnadjustChannel(a, channelDegrees, maxInj);
    DivDecompose(a + channelDegrees, maxInj);
    assert (a - (u - channelDegrees)) % maxInj == 0 by {
      assert a - (u - channelDegrees) == -(u - (a + channelDegrees));
      NegMod(u - (a + channelDegrees), maxInj);
    }
    ModUnique(a, u - channelDegrees, maxInj);
  }

  lemma NegMod(x: int, m: int)
    requires m > 0 && x % m == 0
    ensures (-x) % m == 0
  {
    assert x == m * (x / m);
    assert -x == m * (-(x / m));
    MultipleMod(m, -(x / m));
  }

  /**
    `calculateInjectorTimeout`: the time until a fuel channel must open,
    measuring from the crank angle to the opening angle relative to the
    channel's own offset (channel offset 0 skips the adjustment). The AVR
    `int` arguments are narrowed to the `uint16_t` parameters of the core.
   */
  function CalculateInjectorTimeout(s: FuelSchedule, channelDegrees: i16, openAngle: i16, crankAngle: i16,
                                    maxInj: int, toTime: int -> u32): (t: u32)
    requires 0 < maxInj <= 720
    ensures channelDegrees == 0 && 0 <= crankAngle <= openAngle ==> t == toTime(openAngle - crankAngle)
    ensures channelDegrees == 0 && 0 <= openAngle < crankAngle && s.status != Running ==> t == 0
  {
    if channelDegrees == 0 then
      TimeoutCore(s.status, ToU16(openAngle), ToU16(crankAngle), maxInj, toTime)
    else
      TimeoutCore(s.status, ToU16(AdjustToInjChannel(openAngle, channelDegrees, maxInj)),
                  ToU16(AdjustToInjChannel(crankAngle, channelDegrees, maxInj)), maxInj, toTime)
  }

  /**
    The channel offset does not matter for a RUNNING fuel channel: for angles
    within one cycle the timeout is the conversion of the forward angular
    distance from the crank to the opening angle, whatever the offset. For a
    channel in any other state the offset decides: the event is due at that
    distance when the opening angle does not lie before the crank angle once
    both are measured from the channel's offset, and now (0) otherwise.
   */
  lemma InjectorTimeoutIsForwardDistance(s: FuelSchedule, channelDegrees: i16, openAngle: i16, crankAngle: i16,
                                         maxInj: int, toTime: int -> u32)
    requires 0 < maxInj <= 720
    requires 0 <= openAngle < maxInj && 0 <= crankAngle < maxInj && 0 <= channelDegrees < maxInj
    ensures s.status == Running ==>
              CalculateInjectorTimeout(s, channelDegrees, openAngle, crankAngle, maxInj, toTime)
                == toTime((openAngle - crankAngle) % maxInj)
    ensures s.status != Running ==>
              CalculateInjectorTimeout(s, channelDegrees, openAngle, crankAngle, maxInj, toTime)
                == if (openAngle - channelDegrees) % maxInj >= (crankAngle - channelDegrees) % maxInj
                   then toTime((openAngle - crankAngle) % maxInj) else 0
  {
    var o := if channelDegrees == 0 then openAngle else AdjustToInjChannel(openAngle, channelDegrees, maxInj);
    var c := if channelDegrees == 0 then crankAngle else AdjustToInjChannel(crankAngle, channelDegrees, maxInj);
    AdjustedDistance(openAngle, crankAngle, channelDegrees, maxInj);
    assert CalculateInjectorTimeout(s, channelDegrees, openAngle, crankAngle, maxInj, toTime)
        == TimeoutCore(s.status, o, c, maxInj, toTime);
  }

  /**
    Re-expressing two in-cycle angles relative to a channel offset keeps
    their forward distance: the adjusted angles stay in the cycle and differ
    by the residue of the original difference, or by it minus a cycle.
   */
  lemma AdjustedDistance(target: i16, crank: i16, channelDegrees: i16, m: int)
    requires 0 < m <= 720
    requires 0 <= target < m && 0 <= crank < m && 0 <= channelDegrees < m
    ensures var o := if channelDegrees == 0 then target else AdjustToInjChannel(target, channelDegrees, m);
            var c := if channelDegrees == 0 then crank else AdjustToInjChannel(crank, channelDegrees, m);
            && 0 <= o < m && 0 <= c < m
            && o == (target - channelDegrees) % m && c == (crank - channelDegrees) % m
            && (o - c >= 0 ==> o - c == (target - crank) % m)
            && (o - c < 0 ==> o - c + m == (target - crank) % m)
  {
    var o := if channelDegrees == 0 then target else AdjustToInjChannel(target, channelDegrees, m);
    var c := if channelDegrees == 0 then crank else AdjustToInjChannel(crank, channelDegrees, m);
    assert (o - c - (target - crank)) % m == 0 by {
      if channelDegrees != 0 {
        DivDecompose(target - channelDegrees, m);
        DivDecompose(crank - channelDegrees, m);
        DiffCongruent(o, target - channelDegrees, c, crank - channelDegrees, m);
      } else {
        MultipleMod(m, 0);
      }
    }
    if channelDegrees == 0 {
      MultipleMod(m, 0);
      ModUnique(target, target, m);
      ModUnique(crank, crank, m);
    }
    ForwardDistance(o, c, target - crank, m);
  }

  /** Congruences subtract. */
  lemma DiffCongruent(a: int, a': int, b: int, b': int, m: int)
    requires m > 0 && (a - a') % m == 0 && (b - b') % m == 0
    ensures (a - b - (a' - b')) % m == 0
  {
    assert a - a' == m * ((a - a') / m);
    assert b - b' == m * ((b - b') / m);
    assert a - b - (a' - b') == m * ((a - a') / m - (b - b') / m);
    MultipleMod(m, (a - a') / m - (b - b') / m);
  }

  /** The forward distance from `c` to `o` within one cycle is the residue of their difference. */
  lemma ForwardDistance(o: int, c: int, v: int, m: int)
    requires m > 0 && 0 <= o < m && 0 <= c < m && (o - c - v) % m == 0
    ensures o - c >= 0 ==> o - c == v % m
    ensures o - c < 0 ==> o - c + m == v % m
  {
    if o - c >= 0 {
      ModUnique(o - c, v, m);
    } else {
      ModShift(o - c - v, m, 1);
      assert o - c - v + m * 1 == (o - c + m) - v;
      ModUnique(o - c + m, v, m);
    }
  }

  /**
    `calculateIgnitionTimeout`: the time until an ignition channel must start
    charging, from the crank angle to the dwell start angle relative to the
    channel offset. The adjusted angles come back as `uint16_t` and are passed
    to `int16_t` parameters.
   */
  function CalculateIgnitionTimeout(s: IgnitionSchedule, startAngle: i16, channelDegrees: i16, crankAngle: i16,
                                    maxIgn: int, toTime: int -> u32): (t: u32)
    requires 0 < maxIgn <= 720
    ensures channelDegrees == 0 && 0 <= crankAngle <= startAngle ==> t == toTime(startAngle - crankAngle)
    ensures channelDegrees == 0 && 0 <= startAngle < crankAngle && s.status != Running ==> t == 0
  {
    if channelDegrees == 0 then
      TimeoutCore(s.status, startAngle, crankAngle, maxIgn, toTime)
    else
      TimeoutCore(s.status, ToInt16(AdjustToIgnChannel(startAngle, channelDegrees, maxIgn)),
                  ToInt16(AdjustToIgnChannel(crankAngle, channelDegrees, maxIgn)), maxIgn, toTime)
  }

  /**
    As for injection: a RUNNING ignition channel's timeout does not depend on
    its offset, and any other channel's is the forward distance or 0 as the
    dwell start lies at or after, or before, the crank angle measured from
    the channel's offset.
   */
  lemma IgnitionTimeoutIsForwardDistance(s: IgnitionSchedule, startAngle: i16, channelDegrees: i16, crankAngle: i16,
                                         maxIgn: int, toTime: int -> u32)
    requires 0 < maxIgn <= 720
    requires 0 <= startAngle < maxIgn && 0 <= crankAngle < maxIgn && 0 <= channelDegrees < maxIgn
    ensures s.status == Running ==>
              CalculateIgnitionTimeout(s, startAngle, channelDegrees, crankAngle, maxIgn, toTime)
                == toTime((startAngle - crankAngle) % maxIgn)
    ensures s.status != Running ==>
              CalculateIgnitionTimeout(s, startAngle, channelDegrees, crankAngle, maxIgn, toTime)
                == if (startAngle - channelDegrees) % maxIgn >= (crankAngle - channelDegrees) % maxIgn
                   then toTime((startAngle - crankAngle) % maxIgn) else 0
  {
    var o := if channelDegrees == 0 then startAngle else AdjustToInjChannel(startAngle, channelDegrees, maxIgn);
    var c := if channelDegrees == 0 then crankAngle else AdjustToInjChannel(crankAngle, channelDegrees, maxIgn);
    AdjustedDistance(startAngle, crankAngle, channelDegrees, maxIgn);
    assert CalculateIgnitionTimeout(s, startAngle, channelDegrees, crankAngle, maxIgn, toTime)
        == TimeoutCore(s.status, o, c, maxIgn, toTime);
  }

  // ---------------------------------------------------------------------------
  // Ignition angles

  datatype DwellAngles = DwellAngles(endAngle: int, startAngle: int)

  /**
    `calculateIgnitionAngle`: the spark (end) angle is the channel offset (a
    zero offset meaning a full cycle) minus the advance, brought back once
    exactly when beyond the cycle; the dwell (start) angle lies `dwellAngle`
    before it, brought forward once exactly when negative. End and start always differ by
    the dwell modulo the cycle; for ordinary inputs both lie in the cycle.
   */
  function CalculateIgnitionAngle(dwellAngle: u16, channelDegrees: u16, advance: i8, maxIgn: int): (r: DwellAngles)
    requires 0 < maxIgn <= 720
    ensures channelDegrees <= maxIgn ==>
              ((r.endAngle - ((if channelDegrees == 0 then maxIgn else channelDegrees) - advance)) % maxIgn == 0)
    ensures channelDegrees <= maxIgn && dwellAngle <= maxIgn ==> (r.endAngle - r.startAngle - dwellAngle) % maxIgn == 0
    ensures channelDegrees <= maxIgn && 128 <= maxIgn ==> r.endAngle <= maxIgn
    ensures 0 <= r.endAngle <= maxIgn && dwellAngle <= maxIgn ==> 0 <= r.startAngle <= maxIgn
    ensures channelDegrees <= maxIgn ==>
              var spark := (if channelDegrees == 0 then maxIgn else channelDegrees) - advance;
              && (r.endAngle == spark || r.endAngle == spark - maxIgn)
              && (r.endAngle == spark <==> spark <= maxIgn)
    ensures r.startAngle == r.endAngle - dwellAngle <==> r.endAngle - dwellAngle >= 0
    ensures -0x8000 <= r.endAngle - dwellAngle < 0x8000 ==>
              r.startAngle == r.endAngle - dwellAngle || r.startAngle == r.endAngle - dwellAngle + maxIgn
  {
    var sel := if channelDegrees == 0 then maxIgn else channelDegrees;
    var end0 := ToInt16(ToInt16(sel) - advance);
    var end := if end0 > maxIgn then end0 - maxIgn else end0;
    var start0 := ToInt16(end - dwellAngle);
    var start := if start0 < 0 then start0 + maxIgn else start0;
    MultipleMod(maxIgn, -1);
    MultipleMod(maxIgn, 0);
    DwellAngles(end, start)
  }

  /**
    Worked cases on a 360-degree cycle with 20 degrees of dwell on the
    channel at 0 degrees: 10 degrees of advance sparks at 350 and starts
    charging at 330; 20 degrees of retard wraps the spark to 20 and the
    charge start to 0.
   */
  lemma IgnitionAngleExamples()
    ensures CalculateIgnitionAngle(20, 0, 10, 360) == DwellAngles(350, 330)
    ensures CalculateIgnitionAngle(20, 0, -20, 360) == DwellAngles(20, 0)
  {
  }

  /**
    `calculateIgnitionTrailingRotary`: the trailing spark of a rotary engine
    fires `rotarySplitDegrees` after the leading one; its dwell starts
    `dwellAngle` before that, normalised once in each direction.
   */
  function CalculateIgnitionTrailingRotary(dwellAngle: u16, rotarySplitDegrees: i16, leadIgnitionAngle: i16,
                                           maxIgn: int): (r: DwellAngles)
    requires 0 < maxIgn <= 720
    ensures -0x8000 <= leadIgnitionAngle + rotarySplitDegrees < 0x8000 ==>
              r.endAngle == leadIgnitionAngle + rotarySplitDegrees
    ensures -0x8000 <= r.endAngle - dwellAngle < 0x8000 ==> (r.endAngle - r.startAngle - dwellAngle) % maxIgn == 0
    ensures -maxIgn <= r.endAngle - dwellAngle <= 2 * maxIgn ==> 0 <= r.startAngle <= maxIgn
  {
    var end := ToInt16(leadIgnitionAngle + rotarySplitDegrees);
    var start0 := ToInt16(end - dwellAngle);
    var start1 := if start0 > maxIgn then start0 - maxIgn else start0;
    var start := if start1 < 0 then start1 + maxIgn else start1;
    MultipleMod(maxIgn, -1);
    MultipleMod(maxIgn, 0);
    MultipleMod(maxIgn, 1);
    DwellAngles(end, start)
  }

  // ---------------------------------------------------------------------------
  // Decoder correction

  /** Crank revolutions after which the decoder may place an ignition end compare. */
  const MIN_CYCLES_FOR_ENDCOMPARE: int := 6

  /**
    `adjustCrankAngle`: on a tooth, the decoder re-times the spark of an
    ignition channel from the current crank angle. A RUNNING channel has its
    compare register moved; otherwise, once the engine has turned more than
    six revolutions, the end compare is set and marked as the decoder's, so
    the next dwell ends there. Nothing else changes.
   */
  function AdjustCrankAngle(s: IgnitionSchedule, endAngle: i16, crankAngle: i16, startRevolutions: nat,
                            counter: u16, toTime: int -> u32, limits: int -> int): (r: IgnitionSchedule)
    ensures s.status == Running ==>
              && (r.compare - counter - UsToTicks(toTime(limits(ToInt16(endAngle - crankAngle))))) % U16_MOD == 0
              && r.(compare := s.compare) == s
    ensures s.status != Running && startRevolutions > MIN_CYCLES_FOR_ENDCOMPARE ==>
              && r.endScheduleSetByDecoder
              && (r.endCompare - counter - UsToTicks(toTime(limits(ToInt16(endAngle - crankAngle))))) % U16_MOD == 0
              && r.(endCompare := s.endCompare, endScheduleSetByDecoder := s.endScheduleSetByDecoder) == s
    ensures s.status != Running && startRevolutions <= MIN_CYCLES_FOR_ENDCOMPARE ==> r == s
    ensures r.status == s.status
  {
    var target := CompareAfter(counter, UsToTicks(toTime(limits(ToInt16(endAngle - crankAngle)))));
    if s.status == Running then s.(compare := target)
    else if startRevolutions > MIN_CYCLES_FOR_ENDCOMPARE then s.(endCompare := target, endScheduleSetByDecoder := true)
    else s
  }

  /**
    The decoder's end compare is honoured: once placed on a channel that is
    then armed and reaches its start, the dwell ends exactly there rather
    than `duration` after the start.
   */
  lemma DecoderEndCompareHonoured(s: IgnitionSchedule, stats: DwellStats, endAngle: i16, crankAngle: i16,
                                  startRevolutions: nat, counter: u16, toTime: int -> u32, limits: int -> int,
                                  timeout: u32, duration: u32, armCounter: u16, isrCounter: u16, now: u32)
    requires s.status != Running && startRevolutions > MIN_CYCLES_FOR_ENDCOMPARE
    ensures var adjusted := AdjustCrankAngle(s, endAngle, crankAngle, startRevolutions, counter, toTime, limits);
            var armed := SetIgnitionSchedule(adjusted, timeout, duration, armCounter).sched;
            var charging := IgnitionScheduleISR(armed, stats, isrCounter, now).sched;
            && charging.status == Running
            && charging.compare == adjusted.endCompare
            && (charging.compare - counter - UsToTicks(toTime(limits(ToInt16(endAngle - crankAngle))))) % U16_MOD == 0
  {
  }
}

=== FILE: schedule_lifecycle.dfy ===
/**
  The life of one schedule over any sequence of the things that can happen
  to it: the main loop arming it, its compare register matching, the
  decoder cancelling a pending event, and, for ignition, the dwell being
  re-targeted or cut by the over-dwell check.

  Each operation is one atomic step (interrupts do not preempt each other in
  this model); a run folds the steps and concatenates their call traces.
 */
module ScheduleLifecycle {
  import opened Machine
  import opened Board
  import opened Scheduler
  import opened Timers

  /** An event is in flight: armed or in progress. */
  predicate Active(st: Status) {
    st == Pending || st == Running
  }

  /**
    A callback sequence that alternates start and end callbacks, beginning
    with the end callback when the schedule starts out RUNNING.
   */
  predicate Alternating(cbs: seq<Callback>, start: Callback, end: Callback, running: bool)
    decreases |cbs|
  {
    cbs == [] || (cbs[0] == (if running then end else start) && Alternating(cbs[1..], start, end, !running))
  }

  /** Whether the timer interrupt is enabled after a trace, from `on` before it. */
  function TimerOn(on: bool, effects: seq<Effect>): bool
    decreases |effects|
  {
    if effects == [] then on
    else TimerOn(if effects[0] == TimerEnable then true else if effects[0] == TimerDisable then false else on,
                 effects[1..])
  }

  lemma {:induction false} InvokedAppend(a: seq<Effect>, b: seq<Effect>)
    ensures Invoked(a + b) == Invoked(a) + Invoked(b)
    decreases |a|
  {
    if a != [] {
      assert (a + b)[1..] == a[1..] + b;
      InvokedAppend(a[1..], b);
    } else {
      assert a + b == b;
    }
  }

  lemma {:induction false} TimerOnAppend(on: bool, a: seq<Effect>, b: seq<Effect>)
    ensures TimerOn(on, a + b) == TimerOn(TimerOn(on, a), b)
    decreases |a|
  {
    if a != [] {
      assert (a + b)[1..] == a[1..] + b;
      var on' := if a[0] == TimerEnable then true else if a[0] == TimerDisable then false else on;
      TimerOnAppend(on', a[1..], b);
    } else {
      assert a + b == b;
    }
  }

  /** A trace that enables the timer from a disabled state also does so from an enabled one. */
  lemma {:induction false} TimerOnMonotone(effects: seq<Effect>)
    ensures TimerOn(false, effects) ==> TimerOn(true, effects)
    decreases |effects|
  {
    if effects != [] {
      var e := effects[0];
      if e != TimerEnable && e != TimerDisable {
        TimerOnMonotone(effects[1..]);
      }
    }
  }

  /**
    Prefixing one callback to an alternating sequence: the callback the
    status calls for, after which the status has flipped.
   */
  lemma AlternatingCons(x: Callback, cbs: seq<Callback>, start: Callback, end: Callback, running: bool)
    requires x == (if running then end else start)
    requires Alternating(cbs, start, end, !running)
    ensures Alternating([x] + cbs, start, end, running)
    ensures |[x] + cbs| % 2 == 1 <==> |cbs| % 2 == 0
  {
    assert ([x] + cbs)[1..] == cbs;
  }

  /** Only the schedule's own two callbacks appear in an alternating sequence. */
  lemma {:induction false} AlternatingOwn(cbs: seq<Callback>, start: Callback, end: Callback, running: bool)
    requires Alternating(cbs, start, end, running)
    ensures forall c :: c in cbs ==> c == start || c == end
    decreases |cbs|
  {
    if cbs != [] {
      AlternatingOwn(cbs[1..], start, end, !running);
      assert cbs == [cbs[0]] + cbs[1..];
    }
  }

  // ---------------------------------------------------------------------------
  // Fuel

  datatype FuelOp =
    | Arm(timeout: u32, duration: u32, counter: u16)
    | Match(counter: u16)
    | Cancel

  /** The queue holds an event only behind a RUNNING one. */
  predicate FuelQueueOk(s: FuelSchedule) {
    s.hasNextSchedule ==> s.status == Running
  }

  /**
    One fuel step. At most one callback runs: none, and the channel stays as
    RUNNING or not-RUNNING as it was, or the one the status calls for (the
    start callback on opening, the end callback on closing) and the channel
    flips between RUNNING and not. The callbacks are never rebound; the
    queue invariant and the absence of STAGED are kept; an event still in
    flight afterwards has its timer interrupt enabled.
   */
  function ApplyFuel(s: FuelSchedule, op: FuelOp): (r: Step<FuelSchedule>)
    ensures r.sched.startFunction == s.startFunction && r.sched.endFunction == s.endFunction
    ensures || (Invoked(r.effects) == [] && (r.sched.status == Running) == (s.status == Running))
            || (Invoked(r.effects) == [if s.status == Running then s.endFunction else s.startFunction]
                && (r.sched.status == Running) == (s.status != Running))
    ensures s.status != Staged ==> r.sched.status != Staged
    ensures FuelQueueOk(s) ==> FuelQueueOk(r.sched)
    ensures Active(r.sched.status) ==> TimerOn(Active(s.status), r.effects)
  {
    match op
    case Arm(timeout, duration, counter) => SetFuelSchedule(s, timeout, duration, counter)
    case Match(counter) => FuelScheduleISR(s, counter)
    case Cancel => Step(CancelPendingFuel(s), [])
  }

  function RunFuel(s: FuelSchedule, ops: seq<FuelOp>): (r: Step<FuelSchedule>)
    decreases |ops|
  {
    if ops == [] then Step(s, [])
    else
      var a := ApplyFuel(s, ops[0]);
      var b := RunFuel(a.sched, ops[1..]);
      Step(b.sched, a.effects + b.effects)
  }

  /**
    Over any run the injector callbacks alternate: open, close, open, ...
    (close first when the channel was already RUNNING), so the injector is
    never opened twice without being closed in between; only the channel's
    own callbacks run; and the channel is RUNNING at the end exactly when an
    odd number of callbacks flipped it.
   */
  lemma {:induction false} FuelCallbacksAlternate(s: FuelSchedule, ops: seq<FuelOp>)
    ensures var r := RunFuel(s, ops);
            && Alternating(Invoked(r.effects), s.startFunction, s.endFunction, s.status == Running)
            && (r.sched.status == Running) == ((s.status == Running) != (|Invoked(r.effects)| % 2 == 1))
            && r.sched.startFunction == s.startFunction && r.sched.endFunction == s.endFunction
    decreases |ops|
  {
    if ops != [] {
      var r := RunFuel(s, ops);
      var a := ApplyFuel(s, ops[0]);
      var b := RunFuel(a.sched, ops[1..]);
      assert r == Step(b.sched, a.effects + b.effects);
      FuelCallbacksAlternate(a.sched, ops[1..]);
      InvokedAppend(a.effects, b.effects);
      var run := s.status == Running;
      var ca, cb := Invoked(a.effects), Invoked(b.effects);
      assert Invoked(a.effects + b.effects) == ca + cb;
      if ca == [] {
        assert ca + cb == cb;
      } else {
        var x := if run then s.endFunction else s.startFunction;
        assert ca == [x];
        AlternatingCons(x, cb, s.startFunction, s.endFunction, run);
      }
    }
  }

  /** Only the channel's own two callbacks ever run. */
  lemma FuelRunsOwnCallbacks(s: FuelSchedule, ops: seq<FuelOp>)
    ensures forall c :: c in Invoked(RunFuel(s, ops).effects) ==> c == s.startFunction || c == s.endFunction
  {
    FuelCallbacksAlternate(s, ops);
    AlternatingOwn(Invoked(RunFuel(s, ops).effects), s.startFunction, s.endFunction, s.status == Running);
  }

  /**
    The queue invariant holds over any run, and a channel that starts out of
    STAGED never reaches it.
   */
  lemma {:induction false} FuelQueueInvariant(s: FuelSchedule, ops: seq<FuelOp>)
    requires FuelQueueOk(s)
    ensures FuelQueueOk(RunFuel(s, ops).sched)
    ensures s.status != Staged ==> RunFuel(s, ops).sched.status != Staged
    decreases |ops|
  {
    if ops != [] {
      FuelQueueInvariant(ApplyFuel(s, ops[0]).sched, ops[1..]);
    }
  }

  /**
    Whenever an event is in flight at the end of a run, the channel's timer
    interrupt is enabled, provided it was enabled at the start if an event
    was in flight then.
   */
  lemma {:induction false} FuelTimerEnabledWhileActive(s: FuelSchedule, ops: seq<FuelOp>, on: bool)
    requires Active(s.status) ==> on
    ensures Active(RunFuel(s, ops).sched.status) ==> TimerOn(on, RunFuel(s, ops).effects)
    decreases |ops|
  {
    if ops != [] {
      var a := ApplyFuel(s, ops[0]);
      var b := RunFuel(a.sched, ops[1..]);
      var mid := TimerOn(on, a.effects);
      if Active(a.sched.status) {
        if !on {
          assert !Active(s.status);
        } else {
          TimerOnMonotone(a.effects);
        }
      }
      FuelTimerEnabledWhileActive(a.sched, ops[1..], mid);
      TimerOnAppend(on, a.effects, b.effects);
    }
  }

  /** An idle channel that is never armed stays OFF and runs no callback. */
  lemma {:induction false} FuelStaysOffWithoutArm(s: FuelSchedule, ops: seq<FuelOp>)
    requires s.status == Off
    requires forall k :: 0 <= k < |ops| ==> !ops[k].Arm?
    ensures RunFuel(s, ops).sched.status == Off
    ensures Invoked(RunFuel(s, ops).effects) == []
    decreases |ops|
  {
    if ops != [] {
      var a := ApplyFuel(s, ops[0]);
      FuelStaysOffWithoutArm(a.sched, ops[1..]);
      InvokedAppend(a.effects, RunFuel(a.sched, ops[1..]).effects);
    }
  }

  /**
    One injection from idle: arming enables the timer, the first match opens
    the injector and aims the compare `duration` after that match, the
    second closes it, and the channel goes OFF with its timer disabled.
   */
  lemma FuelSingleEvent(s: FuelSchedule, timeout: u32, duration: u32, c0: u16, c1: u16, c2: u16)
    requires s.status == Off && !s.hasNextSchedule
    ensures var r := RunFuel(s, [Arm(timeout, duration, c0), Match(c1), Match(c2)]);
            && r.effects == [TimerEnable, Invoke(s.startFunction), Invoke(s.endFunction), TimerDisable]
            && r.sched.status == Off
            && r.sched.duration == duration
    ensures var open := RunFuel(s, [Arm(timeout, duration, c0), Match(c1)]).sched;
            open.status == Running && (open.compare - c1 - UsToTicks(duration)) % U16_MOD == 0
  {
    var a1 := ApplyFuel(s, Arm(timeout, duration, c0));
    var a2 := ApplyFuel(a1.sched, Match(c1));
    var a3 := ApplyFuel(a2.sched, Match(c2));
    assert a1.effects == [TimerEnable] && a1.sched.status == Pending && !a1.sched.hasNextSchedule;
    assert a2.effects == [Invoke(s.startFunction)] && a2.sched.status == Running;
    assert a3.effects == [Invoke(s.endFunction), TimerDisable] && a3.sched.status == Off;
    assert RunFuel(a2.sched, [Match(c2)]) == Step(a3.sched, a3.effects + []);
    assert RunFuel(a1.sched, [Match(c1), Match(c2)]) == Step(a3.sched, a2.effects + (a3.effects + []));
    assert RunFuel(s, [Arm(timeout, duration, c0), Match(c1), Match(c2)])
        == Step(a3.sched, a1.effects + (a2.effects + (a3.effects + [])));
    assert RunFuel(a1.sched, [Match(c1)]) == Step(a2.sched, a2.effects + []);
    assert RunFuel(s, [Arm(timeout, duration, c0), Match(c1)]) == Step(a2.sched, a1.effects + (a2.effects + []));
  }

  /**
    An event queued while the injector is open runs next: closing the first
    promotes it to PENDING at the start compare it was queued for, and two
    more matches open and close it. Its width is not its own: the queue
    stores only compare values, the end compare it promotes is never read,
    and opening aims the close at the first event's `duration` after the
    counter. The timer stays enabled throughout and is disabled only at the
    very end.
   */
  lemma FuelQueuedEvent(s: FuelSchedule, t1: u32, d1: u32, t2: u32, d2: u32, c0: u16, c1: u16, c2: u16,
                        c3: u16, c4: u16, c5: u16)
    requires s.status == Off && !s.hasNextSchedule && t2 < MAX_TIMER_PERIOD
    ensures var r := RunFuel(s, [Arm(t1, d1, c0), Match(c1), Arm(t2, d2, c2), Match(c3), Match(c4), Match(c5)]);
            && r.effects == [TimerEnable, Invoke(s.startFunction), Invoke(s.endFunction),
                             Invoke(s.startFunction), Invoke(s.endFunction), TimerDisable]
            && r.sched.status == Off && !r.sched.hasNextSchedule
    ensures var promoted := RunFuel(s, [Arm(t1, d1, c0), Match(c1), Arm(t2, d2, c2), Match(c3)]).sched;
            && promoted.status == Pending
            && (promoted.compare - c2 - UsToTicks(t2)) % U16_MOD == 0
            && (promoted.endCompare - promoted.compare - UsToTicks(d2)) % U16_MOD == 0
    ensures var second := RunFuel(s, [Arm(t1, d1, c0), Match(c1), Arm(t2, d2, c2), Match(c3), Match(c4)]).sched;
            && second.status == Running
            && second.duration == d1
            && (second.compare - c4 - UsToTicks(d1)) % U16_MOD == 0
  {
    var prefix := [Arm(t1, d1, c0), Match(c1), Arm(t2, d2, c2), Match(c3), Match(c4)];
    QueuedPrefix(s, t1, d1, t2, d2, c0, c1, c2, c3);
    QueuedOpens(s, t1, d1, t2, d2, c0, c1, c2, c3, c4);
    var q := RunFuel(s, prefix);
    RunningCloses(q.sched, c5);
    RunFuelAppend(s, prefix, [Match(c5)]);
    assert prefix + [Match(c5)] == [Arm(t1, d1, c0), Match(c1), Arm(t2, d2, c2), Match(c3), Match(c4), Match(c5)];
  }

  /**
    The queued pulse's width is lost: whenever the two requested widths
    differ by less than a timer period, the promoted pulse does not end the
    second width after it opens.
   */
  lemma QueuedWidthIgnored(s: FuelSchedule, t1: u32, d1: u32, t2: u32, d2: u32, c0: u16, c1: u16, c2: u16,
                           c3: u16, c4: u16)
    requires s.status == Off && !s.hasNextSchedule && t2 < MAX_TIMER_PERIOD
    requires UsToTicks(d1) < U16_MOD && UsToTicks(d2) < U16_MOD && UsToTicks(d1) != UsToTicks(d2)
    ensures var second := RunFuel(s, [Arm(t1, d1, c0), Match(c1), Arm(t2, d2, c2), Match(c3), Match(c4)]).sched;
            (second.compare - c4 - UsToTicks(d2)) % U16_MOD != 0
  {
    QueuedOpens(s, t1, d1, t2, d2, c0, c1, c2, c3, c4);
    var second := RunFuel(s, [Arm(t1, d1, c0), Match(c1), Arm(t2, d2, c2), Match(c3), Match(c4)]).sched;
    var x := second.compare - c4;
    if (x - UsToTicks(d2)) % U16_MOD == 0 {
      SameResidue(UsToTicks(d1), x);
      SameResidue(UsToTicks(d2), x);
      assert false;
    }
  }

  /** A value in `[0, 2^16)` congruent to `x` is the residue of `x`. */
  lemma SameResidue(a: int, x: int)
    requires 0 <= a < U16_MOD && (x - a) % U16_MOD == 0
    ensures a == x % U16_MOD
  {
    var k := (x - a) / U16_MOD;
    assert x - a == U16_MOD * k;
    assert a - x == U16_MOD * -k;
    MultipleMod(U16_MOD, -k);
    ModUnique(a, x, U16_MOD);
  }

  /**
    With the evidently intended queue, which stores the queued width, the
    same run opens the queued event at its start compare and ends it the
    queued width after it opens.
   */
  lemma FuelQueuedEventIntended(s: FuelSchedule, t1: u32, d1: u32, t2: u32, d2: u32, c0: u16, c1: u16, c2: u16,
                                c3: u16, c4: u16)
    requires s.status == Off && !s.hasNextSchedule
    ensures var armed := SetFuelSchedule(s, t1, d1, c0).sched;
            var first := FuelScheduleISR(armed, c1).sched;
            var queued := SetFuelScheduleNextIntended(first, t2, d2, c2);
            var promoted := FuelScheduleISR(queued, c3).sched;
            var second := FuelScheduleISR(promoted, c4).sched;
            && first.status == Running
            && promoted.status == Pending
            && (promoted.compare - c2 - UsToTicks(t2)) % U16_MOD == 0
            && second.status == Running
            && second.duration == d2
            && (second.compare - c4 - UsToTicks(d2)) % U16_MOD == 0
  {
  }

  /** Running `xs` then `ys` is running their concatenation. */
  lemma RunFuelAppend(s: FuelSchedule, xs: seq<FuelOp>, ys: seq<FuelOp>)
    ensures var a := RunFuel(s, xs);
            var b := RunFuel(a.sched, ys);
            RunFuel(s, xs + ys) == Step(b.sched, a.effects + b.effects)
  {
    RunFuelIsFold(s, xs + ys);
    RunFuelIsFold(s, xs);
    RunFuelIsFold(RunFuel(s, xs).sched, ys);
    FoldAppend(ApplyFuel, s, xs, ys);
  }

  /** `RunFuel` is the fold of `ApplyFuel` over the operations. */
  lemma {:induction false} RunFuelIsFold(s: FuelSchedule, ops: seq<FuelOp>)
    ensures RunFuel(s, ops) == Fold(ApplyFuel, s, ops)
    decreases |ops|
  {
    if ops != [] {
      RunFuelIsFold(ApplyFuel(s, ops[0]).sched, ops[1..]);
    }
  }

  /** A trace-producing step function applied to each operation in turn. */
  function Fold<S, O>(step: (S, O) -> Step<S>, s: S, ops: seq<O>): Step<S>
    decreases |ops|
  {
    if ops == [] then Step(s, [])
    else
      var a := step(s, ops[0]);
      var b := Fold(step, a.sched, ops[1..]);
      Step(b.sched, a.effects + b.effects)
  }

  /** Folding over a concatenation folds the second part from where the first ends. */
  lemma {:induction false} FoldAppend<S, O>(step: (S, O) -> Step<S>, s: S, xs: seq<O>, ys: seq<O>)
    ensures var a := Fold(step, s, xs);
            var b := Fold(step, a.sched, ys);
            Fold(step, s, xs + ys) == Step(b.sched, a.effects + b.effects)
    decreases |xs|
  {
    if xs == [] {
      assert xs + ys == ys;
    } else {
      var a := step(s, xs[0]);
      assert (xs + ys)[0] == xs[0];
      assert (xs + ys)[1..] == xs[1..] + ys;
      FoldAppend(step, a.sched, xs[1..], ys);
      var m := Fold(step, a.sched, xs[1..]);
      var b := Fold(step, m.sched, ys);
      assert a.effects + (m.effects + b.effects) == (a.effects + m.effects) + b.effects;
    }
  }

  /**
    Arming, opening, queuing and closing: the queued event is promoted to
    PENDING at the compare values it was queued for, after an enable, an
    open and a close.
   */
  lemma QueuedPrefix(s: FuelSchedule, t1: u32, d1: u32, t2: u32, d2: u32, c0: u16, c1: u16, c2: u16, c3: u16)
    requires s.status == Off && !s.hasNextSchedule && t2 < MAX_TIMER_PERIOD
    ensures var p := RunFuel(s, [Arm(t1, d1, c0), Match(c1), Arm(t2, d2, c2), Match(c3)]);
            && p.effects == [TimerEnable, Invoke(s.startFunction), Invoke(s.endFunction)]
            && p.sched.status == Pending && !p.sched.hasNextSchedule && p.sched.duration == d1
            && p.sched.startFunction == s.startFunction && p.sched.endFunction == s.endFunction
            && (p.sched.compare - c2 - UsToTicks(t2)) % U16_MOD == 0
            && (p.sched.endCompare - p.sched.compare - UsToTicks(d2)) % U16_MOD == 0
  {
    var xs := [Arm(t1, d1, c0), Match(c1)];
    var ys := [Arm(t2, d2, c2), Match(c3)];
    ArmAndOpen(s, t1, d1, c0, c1);
    var o := RunFuel(s, xs);
    QueueAndClose(o.sched, t2, d2, c2, c3);
    RunFuelAppend(s, xs, ys);
    assert xs + ys == [Arm(t1, d1, c0), Match(c1), Arm(t2, d2, c2), Match(c3)];
  }

  /** Arming an idle channel and reaching its start opens the injector. */
  lemma ArmAndOpen(s: FuelSchedule, t1: u32, d1: u32, c0: u16, c1: u16)
    requires s.status == Off && !s.hasNextSchedule
    ensures var o := RunFuel(s, [Arm(t1, d1, c0), Match(c1)]);
            && o.effects == [TimerEnable, Invoke(s.startFunction)]
            && o.sched.status == Running && !o.sched.hasNextSchedule && o.sched.duration == d1
            && o.sched.startFunction == s.startFunction && o.sched.endFunction == s.endFunction
  {
    var a1 := ApplyFuel(s, Arm(t1, d1, c0));
    var a2 := ApplyFuel(a1.sched, Match(c1));
    assert a1.effects == [TimerEnable] && a1.sched.status == Pending && !a1.sched.hasNextSchedule;
    assert a2.effects == [Invoke(s.startFunction)] && a2.sched.status == Running && !a2.sched.hasNextSchedule;
    assert RunFuel(a1.sched, [Match(c1)]) == Step(a2.sched, a2.effects + []);
    assert RunFuel(s, [Arm(t1, d1, c0), Match(c1)]) == Step(a2.sched, a1.effects + (a2.effects + []));
  }

  /** Queuing behind an open injector and closing it promotes the queued event. */
  lemma QueueAndClose(o: FuelSchedule, t2: u32, d2: u32, c2: u16, c3: u16)
    requires o.status == Running && !o.hasNextSchedule && t2 < MAX_TIMER_PERIOD
    ensures var p := RunFuel(o, [Arm(t2, d2, c2), Match(c3)]);
            && p.effects == [Invoke(o.endFunction)]
            && p.sched.status == Pending && !p.sched.hasNextSchedule && p.sched.duration == o.duration
            && p.sched.startFunction == o.startFunction && p.sched.endFunction == o.endFunction
            && (p.sched.compare - c2 - UsToTicks(t2)) % U16_MOD == 0
            && (p.sched.endCompare - p.sched.compare - UsToTicks(d2)) % U16_MOD == 0
  {
    var a3 := ApplyFuel(o, Arm(t2, d2, c2));
    var a4 := ApplyFuel(a3.sched, Match(c3));
    assert a3.effects == [] && a3.sched == SetFuelScheduleNext(o, t2, d2, c2);
    assert a4.effects == [Invoke(o.endFunction)] && a4.sched.status == Pending && !a4.sched.hasNextSchedule;
    assert a4.sched.compare == a3.sched.nextStartCompare && a4.sched.endCompare == a3.sched.nextEndCompare;
    assert RunFuel(a3.sched, [Match(c3)]) == Step(a4.sched, a4.effects + []);
    assert RunFuel(o, [Arm(t2, d2, c2), Match(c3)]) == Step(a4.sched, a3.effects + (a4.effects + []));
  }

  /**
    Reaching the promoted event's start opens the injector for the width
    still stored in the record, the first event's.
   */
  lemma QueuedOpens(s: FuelSchedule, t1: u32, d1: u32, t2: u32, d2: u32, c0: u16, c1: u16, c2: u16,
                    c3: u16, c4: u16)
    requires s.status == Off && !s.hasNextSchedule && t2 < MAX_TIMER_PERIOD
    ensures var q := RunFuel(s, [Arm(t1, d1, c0), Match(c1), Arm(t2, d2, c2), Match(c3), Match(c4)]);
            && q.effects == [TimerEnable, Invoke(s.startFunction), Invoke(s.endFunction), Invoke(s.startFunction)]
            && q.sched.status == Running && !q.sched.hasNextSchedule
            && q.sched.endFunction == s.endFunction
            && q.sched.duration == d1
            && (q.sched.compare - c4 - UsToTicks(d1)) % U16_MOD == 0
  {
    var xs := [Arm(t1, d1, c0), Match(c1), Arm(t2, d2, c2), Match(c3)];
    QueuedPrefix(s, t1, d1, t2, d2, c0, c1, c2, c3);
    var p := RunFuel(s, xs);
    var a := ApplyFuel(p.sched, Match(c4));
    assert a.effects == [Invoke(s.startFunction)] && a.sched.status == Running && !a.sched.hasNextSchedule;
    assert RunFuel(p.sched, [Match(c4)]) == Step(a.sched, a.effects + []);
    RunFuelAppend(s, xs, [Match(c4)]);
    assert xs + [Match(c4)] == [Arm(t1, d1, c0), Match(c1), Arm(t2, d2, c2), Match(c3), Match(c4)];
  }

  /** An open injector with nothing queued closes, goes OFF and disables its timer. */
  lemma RunningCloses(q: FuelSchedule, c: u16)
    requires q.status == Running && !q.hasNextSchedule
    ensures var r := RunFuel(q, [Match(c)]);
            && r.effects == [Invoke(q.endFunction), TimerDisable]
            && r.sched.status == Off && !r.sched.hasNextSchedule
  {
    var a := ApplyFuel(q, Match(c));
    assert RunFuel(q, [Match(c)]) == Step(a.sched, a.effects + []);
  }

  /** Queuing twice keeps only the later request: the queue has one slot. */
  lemma LastQueuedWins(s: FuelSchedule, t1: u32, d1: u32, c1: u16, t2: u32, d2: u32, c2: u16)
    ensures SetFuelScheduleNext(SetFuelScheduleNext(s, t1, d1, c1), t2, d2, c2) == SetFuelScheduleNext(s, t2, d2, c2)
  {
  }

  // ---------------------------------------------------------------------------
  // Ignition

  datatype IgnOp =
    | IgnArm(timeout: u32, duration: u32, counter: u16)
    | IgnMatch(counter: u16, now: u32)
    | IgnCancel
    | IgnRetarget(timeToEnd: u32, counter: u16)
    | IgnOverDwell(target: u32)

  /**
    One ignition step, with the same guarantees as for fuel: at most one
    callback, alternating with the RUNNING status; callbacks never rebound;
    no STAGED; an event in flight keeps its timer enabled. The over-dwell
    cut ends a dwell through the end callback, like a spark.
   */
  function ApplyIgn(s: IgnitionSchedule, stats: DwellStats, op: IgnOp): (r: IgnitionIsrStep)
    ensures r.sched.startCallback == s.startCallback && r.sched.endCallback == s.endCallback
    ensures || (Invoked(r.effects) == [] && (r.sched.status == Running) == (s.status == Running))
            || (Invoked(r.effects) == [if s.status == Running then s.endCallback else s.startCallback]
                && (r.sched.status == Running) == (s.status != Running))
    ensures s.status != Staged ==> r.sched.status != Staged
    ensures Active(r.sched.status) ==> TimerOn(Active(s.status), r.effects)
    ensures r.stats.ignitionCount >= stats.ignitionCount
  {
    match op
    case IgnArm(timeout, duration, counter) =>
      var a := SetIgnitionSchedule(s, timeout, duration, counter);
      IgnitionIsrStep(a.sched, stats, a.effects)
    case IgnMatch(counter, now) => IgnitionScheduleISR(s, stats, counter, now)
    case IgnCancel => IgnitionIsrStep(CancelPendingIgn(s), stats, [])
    case IgnRetarget(timeToEnd, counter) => IgnitionIsrStep(RetargetDwell(s, timeToEnd, counter), stats, [])
    case IgnOverDwell(target) =>
      var a := ApplyOverDwellCheck(s, target);
      IgnitionIsrStep(a.sched, stats, a.effects)
  }

  function RunIgn(s: IgnitionSchedule, stats: DwellStats, ops: seq<IgnOp>): (r: IgnitionIsrStep)
    decreases |ops|
  {
    if ops == [] then IgnitionIsrStep(s, stats, [])
    else
      var a := ApplyIgn(s, stats, ops[0]);
      var b := RunIgn(a.sched, a.stats, ops[1..]);
      IgnitionIsrStep(b.sched, b.stats, a.effects + b.effects)
  }

  /**
    Over any run the coil callbacks alternate: charge, spark, charge, ...,
    so a coil is never charged twice without firing in between, and only the
    channel's own callbacks run.
   */
  lemma {:induction false} IgnitionCallbacksAlternate(s: IgnitionSchedule, stats: DwellStats, ops: seq<IgnOp>)
    ensures var r := RunIgn(s, stats, ops);
            && Alternating(Invoked(r.effects), s.startCallback, s.endCallback, s.status == Running)
            && (r.sched.status == Running) == ((s.status == Running) != (|Invoked(r.effects)| % 2 == 1))
            && r.sched.startCallback == s.startCallback && r.sched.endCallback == s.endCallback
    decreases |ops|
  {
    if ops != [] {
      var r := RunIgn(s, stats, ops);
      var a := ApplyIgn(s, stats, ops[0]);
      var b := RunIgn(a.sched, a.stats, ops[1..]);
      assert r == IgnitionIsrStep(b.sched, b.stats, a.effects + b.effects);
      IgnitionCallbacksAlternate(a.sched, a.stats, ops[1..]);
      InvokedAppend(a.effects, b.effects);
      var run := s.status == Running;
      var ca, cb := Invoked(a.effects), Invoked(b.effects);
      assert Invoked(a.effects + b.effects) == ca + cb;
      if ca == [] {
        assert ca + cb == cb;
      } else {
        var x := if run then s.endCallback else s.startCallback;
        assert ca == [x];
        AlternatingCons(x, cb, s.startCallback, s.endCallback, run);
      }
    }
  }

  /** Only the channel's own two callbacks ever run. */
  lemma IgnitionRunsOwnCallbacks(s: IgnitionSchedule, stats: DwellStats, ops: seq<IgnOp>)
    ensures forall c :: c in Invoked(RunIgn(s, stats, ops).effects) ==> c == s.startCallback || c == s.endCallback
  {
    IgnitionCallbacksAlternate(s, stats, ops);
    AlternatingOwn(Invoked(RunIgn(s, stats, ops).effects), s.startCallback, s.endCallback, s.status == Running);
  }

  /**
    Whenever a coil event is in flight at the end of a run its timer is
    enabled, a channel out of STAGED never reaches it, and the spark count
    never goes down.
   */
  lemma {:induction false} IgnitionTimerEnabledWhileActive(s: IgnitionSchedule, stats: DwellStats, ops: seq<IgnOp>, on: bool)
    requires Active(s.status) ==> on
    ensures var r := RunIgn(s, stats, ops);
            && (Active(r.sched.status) ==> TimerOn(on, r.effects))
            && (s.status != Staged ==> r.sched.status != Staged)
            && r.stats.ignitionCount >= stats.ignitionCount
    decreases |ops|
  {
    if ops != [] {
      var a := ApplyIgn(s, stats, ops[0]);
      var b := RunIgn(a.sched, a.stats, ops[1..]);
      var mid := TimerOn(on, a.effects);
      if Active(a.sched.status) {
        if !on {
          assert !Active(s.status);
        } else {
          TimerOnMonotone(a.effects);
        }
      }
      IgnitionTimerEnabledWhileActive(a.sched, a.stats, ops[1..], mid);
      TimerOnAppend(on, a.effects, b.effects);
    }
  }

  /**
    The over-dwell cut switches a charging coil OFF without clearing its
    queue, so, unlike fuel, an ignition channel can be OFF with an event
    queued; once re-armed and run through a spark, that stale event is what
    the handler promotes.
   */
  lemma OverDwellKeepsQueue(s: IgnitionSchedule, stats: DwellStats, target: u32, t: u32, d: u32,
                            c0: u16, c1: u16, n1: u32, c2: u16, n2: u32)
    requires s.status == Running && s.hasNextSchedule && s.startTime < target && !s.endScheduleSetByDecoder
    ensures var cut := ApplyIgn(s, stats, IgnOverDwell(target)).sched;
            cut.status == Off && cut.hasNextSchedule
    ensures var r := RunIgn(s, stats, [IgnOverDwell(target), IgnArm(t, d, c0), IgnMatch(c1, n1), IgnMatch(c2, n2)]).sched;
            r.status == Pending && r.compare == s.nextStartCompare && !r.hasNextSchedule
  {
    var a1 := ApplyIgn(s, stats, IgnOverDwell(target));
    var a2 := ApplyIgn(a1.sched, a1.stats, IgnArm(t, d, c0));
    var a3 := ApplyIgn(a2.sched, a2.stats, IgnMatch(c1, n1));
    var a4 := ApplyIgn(a3.sched, a3.stats, IgnMatch(c2, n2));
    assert a1.sched == s.(status := Off);
    assert a2.sched.status == Pending && a2.sched.hasNextSchedule && a2.sched.nextStartCompare == s.nextStartCompare;
    assert a3.sched.status == Running && a3.sched.hasNextSchedule && a3.sched.nextStartCompare == s.nextStartCompare;
    assert a4.sched.status == Pending && a4.sched.compare == s.nextStartCompare && !a4.sched.hasNextSchedule;
    assert RunIgn(a3.sched, a3.stats, [IgnMatch(c2, n2)]).sched == a4.sched;
    assert RunIgn(a2.sched, a2.stats, [IgnMatch(c1, n1), IgnMatch(c2, n2)]).sched == a4.sched;
    assert RunIgn(a1.sched, a1.stats, [IgnArm(t, d, c0), IgnMatch(c1, n1), IgnMatch(c2, n2)]).sched == a4.sched;
  }

  /**
    The ignition queue loses the queued dwell the same way: promotion moves
    only the start compare and clears the decoder's end compare, so the
    promoted event charges for the first event's `duration`.
   */
  lemma IgnitionQueuedEvent(s: IgnitionSchedule, stats: DwellStats, t1: u32, d1: u32, t2: u32, d2: u32,
                            c0: u16, c1: u16, c2: u16, c3: u16, c4: u16, n1: u32, n3: u32, n4: u32)
    requires s.status == Off && !s.hasNextSchedule && t2 < MAX_TIMER_PERIOD
    ensures var armed := SetIgnitionSchedule(s, t1, d1, c0).sched;
            var first := IgnitionScheduleISR(armed, stats, c1, n1);
            var queued := SetIgnitionSchedule(first.sched, t2, d2, c2).sched;
            var promoted := IgnitionScheduleISR(queued, first.stats, c3, n3);
            var second := IgnitionScheduleISR(promoted.sched, promoted.stats, c4, n4).sched;
            && promoted.sched.status == Pending
            && (promoted.sched.compare - c2 - UsToTicks(t2)) % U16_MOD == 0
            && second.status == Running
            && second.duration == d1
            && (second.compare - c4 - UsToTicks(d1)) % U16_MOD == 0
  {
  }

}

=== FILE: scheduler.dfy ===
/**
  The per-channel injection and ignition schedules: their records, the
  arming calls of the main loop, the shared compare-match handlers, the
  cancellation of pending events and the start-up reset.

  Every operation is a pure function from the old record to the new one. The
  hardware free-running counter is read as the parameter `counter`; the
  compare register is the record field `compare`. Calls the firmware makes
  into code outside the schedule (the actuator callbacks and the timer
  interrupt enable/disable hooks) are returned, in order, as a trace of
  `Effect`s.
 */
module Scheduler {
  import opened Machine
  import opened Board

  /** `STAGED` exists in the enumeration but no code path assigns it. */
  datatype Status = Off | Pending | Staged | Running

  /**
    A callback pointer: `NoCallback` is the null pointer a zero-initialised
    record starts with, `NullCallback` the firmware's do-nothing function, and
    `Action` any actuator routine bound by the configuration code.
   */
  datatype Callback = NoCallback | NullCallback | Action(id: nat)

  /** One call out of the scheduler. */
  datatype Effect = Invoke(callback: Callback) | TimerEnable | TimerDisable

  datatype FuelSchedule = FuelSchedule(
    duration: u32,
    status: Status,
    startCompare: u16,
    endCompare: u16,
    compare: u16,
    startFunction: Callback,
    endFunction: Callback,
    nextStartCompare: u16,
    nextEndCompare: u16,
    hasNextSchedule: bool)

  datatype IgnitionSchedule = IgnitionSchedule(
    duration: u32,
    status: Status,
    startCallback: Callback,
    endCallback: Callback,
    startTime: u32,
    startCompare: u16,
    endCompare: u16,
    compare: u16,
    nextStartCompare: u16,
    nextEndCompare: u16,
    hasNextSchedule: bool,
    endScheduleSetByDecoder: bool)

  /** A new record together with the calls made while producing it. */
  datatype Step<S> = Step(sched: S, effects: seq<Effect>)

  /** The ignition diagnostics the end-of-dwell handler maintains. */
  datatype DwellStats = DwellStats(ignitionCount: nat, actualDwell: int)

  datatype IgnitionIsrStep = IgnitionIsrStep(sched: IgnitionSchedule, stats: DwellStats, effects: seq<Effect>)

  /** The callbacks a trace invokes, in order. */
  function Invoked(effects: seq<Effect>): (cbs: seq<Callback>)
    ensures |cbs| <= |effects|
    ensures forall k :: 0 <= k < |cbs| ==> Invoke(cbs[k]) in effects
  {
    if effects == [] then []
    else (if effects[0].Invoke? then [effects[0].callback] else []) + Invoked(effects[1..])
  }

  // ---------------------------------------------------------------------------
  // Construction

  /**
    A statically allocated fuel record right after construction: static storage
    is zeroed (so `Status` is `OFF` and the callbacks are null) and
    `hasNextSchedule` has the default member initialiser `false`.
   */
  function NewFuelSchedule(compare: u16): (s: FuelSchedule)
    ensures s.status == Off && !s.hasNextSchedule
    ensures s.startFunction == NoCallback && s.endFunction == NoCallback
    ensures s.compare == compare
  {
    FuelSchedule(0, Off, 0, 0, compare, NoCallback, NoCallback, 0, 0, false)
  }

  /** As `NewFuelSchedule`; `endScheduleSetByDecoder` also starts `false`. */
  function NewIgnitionSchedule(compare: u16): (s: IgnitionSchedule)
    ensures s.status == Off && !s.hasNextSchedule && !s.endScheduleSetByDecoder
    ensures s.startCallback == NoCallback && s.endCallback == NoCallback
    ensures s.compare == compare
  {
    IgnitionSchedule(0, Off, NoCallback, NoCallback, 0, 0, 0, compare, 0, 0, false, false)
  }

  // ---------------------------------------------------------------------------
  // Dwell averaging

  const DWELL_AVERAGE_ALPHA: int := 30

  /**
    The exponential moving average of the measured dwell: weight 226/256 on
    the new sample and 30/256 on the previous average, each product and their
    sum taken in the AVR's 32-bit `long`, with the arithmetic right shift
    rounding toward minus infinity. While the products fit a `long` the
    result lies between the two inputs; a sample above 9,502,720 µs makes
    the first product wrap.
   */
  function DwellAverage(input: int, previous: int): (r: int)
    ensures DwellAverageFits(input, previous) ==>
              && (if input <= previous then input else previous) <= r
              && r <= (if input <= previous then previous else input)
    ensures DwellAverageFits(input, previous) && input == previous ==> r == input
  {
    ToInt32(ToInt32(input * (256 - DWELL_AVERAGE_ALPHA)) + ToInt32(previous * DWELL_AVERAGE_ALPHA)) / 256
  }

  /** Both weighted terms and their sum are within the range of a 32-bit `long`. */
  predicate DwellAverageFits(input: int, previous: int) {
    && -0x8000_0000 <= input * (256 - DWELL_AVERAGE_ALPHA) < 0x8000_0000
    && -0x8000_0000 <= previous * DWELL_AVERAGE_ALPHA < 0x8000_0000
    && -0x8000_0000 <= input * (256 - DWELL_AVERAGE_ALPHA) + previous * DWELL_AVERAGE_ALPHA < 0x8000_0000
  }

  /** The first product wraps for the shortest sample that no longer fits a `long`. */
  lemma DwellAverageWraps()
    ensures !DwellAverageFits(9_502_721, 0)
    ensures DwellAverage(9_502_721, 0) < 0
  {
  }

  // ---------------------------------------------------------------------------
  // Arming (main loop)

  /**
    Arms an idle fuel channel: the start compare lies `ArmTicks(timeout)` ticks
    after the counter, the end compare `duration` later, the compare register
    is aimed at the start, the channel becomes `PENDING` and its timer
    interrupt is enabled. No other field changes.
   */
  function SetFuelScheduleRunning(s: FuelSchedule, timeout: u32, duration: u32, counter: u16): (r: Step<FuelSchedule>)
    ensures r.sched.status == Pending
    ensures r.sched.compare == r.sched.startCompare
    ensures (r.sched.startCompare - counter) % U16_MOD == ArmTicks(timeout)
    ensures (r.sched.endCompare - r.sched.startCompare - UsToTicks(duration)) % U16_MOD == 0
    ensures r.sched.duration == duration
    ensures r.effects == [TimerEnable]
    ensures r.sched.(status := s.status, compare := s.compare, startCompare := s.startCompare,
                     endCompare := s.endCompare, duration := s.duration) == s
  {
    var start := CompareAfter(counter, ArmTicks(timeout));
    Step(s.(duration := duration,
            startCompare := start,
            endCompare := CompareAfter(start, UsToTicks(duration)),
            compare := start,
            status := Pending),
         [TimerEnable])
  }

  /**
    Queues the next fuel event behind the one in flight: only the one-slot
    queue is written, overwriting anything already queued.
   */
  function SetFuelScheduleNext(s: FuelSchedule, timeout: u32, duration: u32, counter: u16): (r: FuelSchedule)
    ensures r.hasNextSchedule
    ensures (r.nextStartCompare - counter - UsToTicks(timeout)) % U16_MOD == 0
    ensures (r.nextEndCompare - r.nextStartCompare - UsToTicks(duration)) % U16_MOD == 0
    ensures r.(nextStartCompare := s.nextStartCompare, nextEndCompare := s.nextEndCompare,
               hasNextSchedule := s.hasNextSchedule) == s
  {
    var next := CompareAfter(counter, UsToTicks(timeout));
    s.(nextStartCompare := next,
       nextEndCompare := CompareAfter(next, UsToTicks(duration)),
       hasNextSchedule := true)
  }

  /**
    The fuel queue as evidently intended: the queued event also carries its
    own width. A RUNNING injector's close is already aimed when the event is
    queued, and the handler reads `duration` only when it opens a PENDING
    event, so storing it here reaches exactly the queued pulse.
   */
  function SetFuelScheduleNextIntended(s: FuelSchedule, timeout: u32, duration: u32, counter: u16): (r: FuelSchedule)
    ensures r.hasNextSchedule && r.duration == duration
    ensures (r.nextStartCompare - counter - UsToTicks(timeout)) % U16_MOD == 0
    ensures (r.nextEndCompare - r.nextStartCompare - UsToTicks(duration)) % U16_MOD == 0
    ensures r.(nextStartCompare := s.nextStartCompare, nextEndCompare := s.nextEndCompare,
               hasNextSchedule := s.hasNextSchedule, duration := s.duration) == s
  {
    SetFuelScheduleNext(s, timeout, duration, counter).(duration := duration)
  }

  /**
    `setFuelSchedule`: arm an idle channel, queue behind a running one, and
    drop the request when the channel is running and the timeout does not
    fit the timer. A running event is never disturbed.
   */
  function SetFuelSchedule(s: FuelSchedule, timeout: u32, duration: u32, counter: u16): (r: Step<FuelSchedule>)
    ensures s.status != Running ==> r == SetFuelScheduleRunning(s, timeout, duration, counter)
    ensures s.status == Running && timeout < MAX_TIMER_PERIOD ==>
              r == Step(SetFuelScheduleNext(s, timeout, duration, counter), [])
    ensures s.status == Running && timeout >= MAX_TIMER_PERIOD ==> r == Step(s, [])
    ensures s.status == Running ==>
              r.sched.status == Running && r.sched.compare == s.compare && r.sched.endCompare == s.endCompare
              && r.effects == []
    ensures r.sched.status == Running || r.sched.status == Pending
  {
    if s.status != Running then SetFuelScheduleRunning(s, timeout, duration, counter)
    else if timeout < MAX_TIMER_PERIOD then Step(SetFuelScheduleNext(s, timeout, duration, counter), [])
    else Step(s, [])
  }

  /**
    Arms an idle ignition channel as for fuel, except that an end compare the
    crank decoder already placed (`endScheduleSetByDecoder`) is kept.
   */
  function SetIgnitionScheduleRunning(s: IgnitionSchedule, timeout: u32, duration: u32, counter: u16): (r: Step<IgnitionSchedule>)
    ensures r.sched.status == Pending
    ensures r.sched.compare == r.sched.startCompare
    ensures (r.sched.startCompare - counter) % U16_MOD == ArmTicks(timeout)
    ensures s.endScheduleSetByDecoder ==> r.sched.endCompare == s.endCompare
    ensures !s.endScheduleSetByDecoder ==>
              (r.sched.endCompare - r.sched.startCompare - UsToTicks(duration)) % U16_MOD == 0
    ensures r.sched.duration == duration
    ensures r.effects == [TimerEnable]
    ensures r.sched.(status := s.status, compare := s.compare, startCompare := s.startCompare,
                     endCompare := s.endCompare, duration := s.duration) == s
  {
    var start := CompareAfter(counter, ArmTicks(timeout));
    var end := if s.endScheduleSetByDecoder then s.endCompare else CompareAfter(start, UsToTicks(duration));
    Step(s.(duration := duration,
            startCompare := start,
            endCompare := end,
            compare := start,
            status := Pending),
         [TimerEnable])
  }

  /** Queues the next ignition event; only the one-slot queue is written. */
  function SetIgnitionScheduleNext(s: IgnitionSchedule, timeout: u32, duration: u32, counter: u16): (r: IgnitionSchedule)
    ensures r.hasNextSchedule
    ensures (r.nextStartCompare - counter - UsToTicks(timeout)) % U16_MOD == 0
    ensures (r.nextEndCompare - r.nextStartCompare - UsToTicks(duration)) % U16_MOD == 0
    ensures r.(nextStartCompare := s.nextStartCompare, nextEndCompare := s.nextEndCompare,
               hasNextSchedule := s.hasNextSchedule) == s
  {
    var next := CompareAfter(counter, UsToTicks(timeout));
    s.(nextStartCompare := next,
       nextEndCompare := CompareAfter(next, UsToTicks(duration)),
       hasNextSchedule := true)
  }

  /** `setIgnitionSchedule`: the same three-way dispatch as for fuel. */
  function SetIgnitionSchedule(s: IgnitionSchedule, timeout: u32, duration: u32, counter: u16): (r: Step<IgnitionSchedule>)
    ensures s.status != Running ==> r == SetIgnitionScheduleRunning(s, timeout, duration, counter)
    ensures s.status == Running && timeout < MAX_TIMER_PERIOD ==>
              r == Step(SetIgnitionScheduleNext(s, timeout, duration, counter), [])
    ensures s.status == Running && timeout >= MAX_TIMER_PERIOD ==> r == Step(s, [])
    ensures s.status == Running ==>
              r.sched.status == Running && r.sched.compare == s.compare && r.sched.endCompare == s.endCompare
              && r.effects == []
    ensures r.sched.status == Running || r.sched.status == Pending
  {
    if s.status != Running then SetIgnitionScheduleRunning(s, timeout, duration, counter)
    else if timeout < MAX_TIMER_PERIOD then Step(SetIgnitionScheduleNext(s, timeout, duration, counter), [])
    else Step(s, [])
  }

  // ---------------------------------------------------------------------------
  // Compare-match dispatch (interrupt context)

  /**
    The shared fuel compare-match handler.
    PENDING: opens the injector, becomes RUNNING, aims the compare `duration`
    after the counter. RUNNING: closes the injector, then either promotes the
    queued event (PENDING, queue emptied) or goes OFF and disables the timer.
    OFF: a spurious match, the timer is disabled. STAGED: no branch applies.
    At most one callback runs, and a channel left OFF has its timer disabled.
   */
  function FuelScheduleISR(s: FuelSchedule, counter: u16): (r: Step<FuelSchedule>)
    ensures s.status == Pending ==>
              && r.effects == [Invoke(s.startFunction)]
              && r.sched.status == Running
              && (r.sched.compare - counter - UsToTicks(s.duration)) % U16_MOD == 0
              && r.sched.(compare := s.compare, status := s.status) == s
    ensures s.status == Running && s.hasNextSchedule ==>
              && r.effects == [Invoke(s.endFunction)]
              && r.sched == s.(status := Pending, compare := s.nextStartCompare,
                               endCompare := s.nextEndCompare, hasNextSchedule := false)
    ensures s.status == Running && !s.hasNextSchedule ==>
              r == Step(s.(status := Off), [Invoke(s.endFunction), TimerDisable])
    ensures s.status == Off ==> r == Step(s, [TimerDisable])
    ensures s.status == Staged ==> r == Step(s, [])
    ensures |Invoked(r.effects)| <= 1
    ensures r.sched.status == Off ==> r.effects[|r.effects| - 1] == TimerDisable
  {
    match s.status
    case Pending =>
      Step(s.(status := Running, compare := CompareAfter(counter, UsToTicks(s.duration))),
           [Invoke(s.startFunction)])
    case Running =>
      if s.hasNextSchedule then
        Step(s.(compare := s.nextStartCompare, endCompare := s.nextEndCompare,
                status := Pending, hasNextSchedule := false),
             [Invoke(s.endFunction)])
      else
        Step(s.(status := Off), [Invoke(s.endFunction), TimerDisable])
    case Off => Step(s, [TimerDisable])
    case Staged => Step(s, [])
  }

  /** The measured dwell: `micros() - startTime` in `unsigned long`, read as a `long`. */
  function DwellSample(now: u32, startTime: u32): (d: int)
    ensures startTime <= now < startTime + 0x8000_0000 ==> d == now - startTime
  {
    ToInt32(ToU32(now - startTime))
  }

  /**
    The shared ignition compare-match handler.
    PENDING: starts the coil charge, records `now` as the start time, becomes
    RUNNING and aims the compare at the decoder's end compare when one was
    set, otherwise `duration` after the counter. RUNNING: fires the spark,
    becomes OFF, forgets the decoder's end compare, counts the event and
    folds the measured dwell into the average; a queued event has only its
    start compare promoted. OFF: the timer is disabled.
   */
  function IgnitionScheduleISR(s: IgnitionSchedule, stats: DwellStats, counter: u16, now: u32): (r: IgnitionIsrStep)
    ensures s.status == Pending ==>
              && r.effects == [Invoke(s.startCallback)]
              && r.stats == stats
              && r.sched.status == Running
              && r.sched.startTime == now
              && (s.endScheduleSetByDecoder ==> r.sched.compare == s.endCompare)
              && (!s.endScheduleSetByDecoder ==>
                    (r.sched.compare - counter - UsToTicks(s.duration)) % U16_MOD == 0)
              && r.sched.(compare := s.compare, status := s.status, startTime := s.startTime) == s
    ensures s.status == Running ==>
              && Invoked(r.effects) == [s.endCallback]
              && r.effects[0] == Invoke(s.endCallback)
              && r.stats.ignitionCount == stats.ignitionCount + 1
              && r.stats.actualDwell == DwellAverage(DwellSample(now, s.startTime), stats.actualDwell)
              && !r.sched.endScheduleSetByDecoder
              && !r.sched.hasNextSchedule
              && r.sched.endCompare == s.endCompare
              && r.sched.nextEndCompare == s.nextEndCompare
    ensures s.status == Running && s.hasNextSchedule ==>
              && r.sched == s.(status := Pending, compare := s.nextStartCompare,
                               endScheduleSetByDecoder := false, hasNextSchedule := false)
              && r.effects == [Invoke(s.endCallback)]
    ensures s.status == Running && !s.hasNextSchedule ==>
              && r.sched == s.(status := Off, endScheduleSetByDecoder := false)
              && r.effects == [Invoke(s.endCallback), TimerDisable]
    ensures s.status == Off ==> r == IgnitionIsrStep(s, stats, [TimerDisable])
    ensures s.status == Staged ==> r == IgnitionIsrStep(s, stats, [])
    ensures |Invoked(r.effects)| <= 1
    ensures r.sched.status == Off ==> r.effects[|r.effects| - 1] == TimerDisable
  {
    match s.status
    case Pending =>
      var target := if s.endScheduleSetByDecoder then s.endCompare
                    else CompareAfter(counter, UsToTicks(s.duration));
      IgnitionIsrStep(s.(status := Running, startTime := now, compare := target),
                      stats, [Invoke(s.startCallback)])
    case Running =>
      var ended := s.(status := Off, endScheduleSetByDecoder := false);
      var stats' := DwellStats(stats.ignitionCount + 1,
                               DwellAverage(DwellSample(now, s.startTime), stats.actualDwell));
      if s.hasNextSchedule then
        IgnitionIsrStep(ended.(compare := s.nextStartCompare, status := Pending, hasNextSchedule := false),
                        stats', [Invoke(s.endCallback)])
      else
        IgnitionIsrStep(ended, stats', [Invoke(s.endCallback), TimerDisable])
    case Off => IgnitionIsrStep(s, stats, [TimerDisable])
    case Staged => IgnitionIsrStep(s, stats, [])
  }

  // ---------------------------------------------------------------------------
  // The channel banks

  /** The per-channel angle globals `initialiseSchedulers` also clears. */
  datatype ChannelAngles = ChannelAngles(
    injDegrees: seq<int>,
    ignDegrees: seq<int>,
    ignStartAngle: seq<int>,
    ignEndAngle: seq<int>)

  /** All fuel and ignition channels; index `i` is the firmware's channel `i + 1`. */
  datatype Schedulers = Schedulers(fuel: seq<FuelSchedule>, ign: seq<IgnitionSchedule>, angles: ChannelAngles)

  /**
    Channels 1-4 of fuel and 1-5 of ignition are declared unconditionally;
    the build option `INJ_CHANNELS` / `IGN_CHANNELS` adds channels up to 8.
   */
  predicate Configured(sys: Schedulers) {
    && 4 <= |sys.fuel| <= 8
    && 5 <= |sys.ign| <= 8
    && |sys.angles.injDegrees| == |sys.fuel|
    && |sys.angles.ignDegrees| == |sys.ign|
    && |sys.angles.ignStartAngle| == |sys.ign|
    && |sys.angles.ignEndAngle| == |sys.ign|
  }

  datatype Bank = FuelBank | IgnitionBank

  /** A call made on behalf of one channel of one bank. */
  datatype ChannelEffect = ChannelEffect(bank: Bank, channel: nat, effect: Effect)

  datatype SchedulersStep = SchedulersStep(sys: Schedulers, effects: seq<ChannelEffect>)

  /** The compare-match interrupt of fuel channel `ch`: only that channel changes. */
  function FuelInterrupt(sys: Schedulers, ch: nat, counter: u16): (r: SchedulersStep)
    requires ch < |sys.fuel|
    ensures |r.sys.fuel| == |sys.fuel| && r.sys.ign == sys.ign && r.sys.angles == sys.angles
    ensures r.sys.fuel[ch] == FuelScheduleISR(sys.fuel[ch], counter).sched
    ensures forall i :: 0 <= i < |sys.fuel| && i != ch ==> r.sys.fuel[i] == sys.fuel[i]
    ensures forall e :: e in r.effects ==> e.bank == FuelBank && e.channel == ch
  {
    var step := FuelScheduleISR(sys.fuel[ch], counter);
    SchedulersStep(sys.(fuel := sys.fuel[ch := step.sched]),
                   seq(|step.effects|, k requires 0 <= k < |step.effects| => ChannelEffect(FuelBank, ch, step.effects[k])))
  }

  /** The compare-match interrupt of ignition channel `ch`: only that channel changes. */
  function IgnitionInterrupt(sys: Schedulers, stats: DwellStats, ch: nat, counter: u16, now: u32): (r: (SchedulersStep, DwellStats))
    requires ch < |sys.ign|
    ensures |r.0.sys.ign| == |sys.ign| && r.0.sys.fuel == sys.fuel && r.0.sys.angles == sys.angles
    ensures r.0.sys.ign[ch] == IgnitionScheduleISR(sys.ign[ch], stats, counter, now).sched
    ensures forall i :: 0 <= i < |sys.ign| && i != ch ==> r.0.sys.ign[i] == sys.ign[i]
    ensures forall e :: e in r.0.effects ==> e.bank == IgnitionBank && e.channel == ch
  {
    var step := IgnitionScheduleISR(sys.ign[ch], stats, counter, now);
    (SchedulersStep(sys.(ign := sys.ign[ch := step.sched]),
                    seq(|step.effects|, k requires 0 <= k < |step.effects| => ChannelEffect(IgnitionBank, ch, step.effects[k]))),
     step.stats)
  }

  // ---------------------------------------------------------------------------
  // Cancellation

  /**
    `disablePendingFuelSchedule(channel)`: the 0-based `channel` selects fuel
    channel `channel + 1`; a PENDING event there is cancelled. RUNNING and OFF
    channels, every other channel, and out-of-range indices are untouched.
   */
  function DisablePendingFuelSchedule(sys: Schedulers, channel: u8): (r: Schedulers)
    requires Configured(sys)
    ensures r.ign == sys.ign && r.angles == sys.angles && |r.fuel| == |sys.fuel|
    ensures forall i :: 0 <= i < |sys.fuel| ==>
              r.fuel[i] == (if i == channel && sys.fuel[i].status == Pending
                            then sys.fuel[i].(status := Off) else sys.fuel[i])
    ensures channel >= |sys.fuel| ==> r == sys
  {
    if channel < |sys.fuel| then sys.(fuel := sys.fuel[channel := CancelPendingFuel(sys.fuel[channel])])
    else sys
  }

  /** The cancellation of one fuel record: only a PENDING event is stopped. */
  function CancelPendingFuel(s: FuelSchedule): (r: FuelSchedule)
    ensures r.status == (if s.status == Pending then Off else s.status)
    ensures r.(status := s.status) == s
  {
    if s.status == Pending then s.(status := Off) else s
  }

  /** The cancellation of one ignition record: only a PENDING event is stopped. */
  function CancelPendingIgn(s: IgnitionSchedule): (r: IgnitionSchedule)
    ensures r.status == (if s.status == Pending then Off else s.status)
    ensures r.(status := s.status) == s
  {
    if s.status == Pending then s.(status := Off) else s
  }

  /**
    The ignition channel index a `disablePendingIgnSchedule` case acts on:
    cases 0-4 select channels 1-5 (index = case), cases 6, 7 and 8 select
    channels 6, 7 and 8 (index = case - 1) when built in; case 5 is absent.
   */
  function IgnCaseIndex(channel: u8, channels: nat): (idx: int)
    requires 5 <= channels <= 8
    ensures idx == -1 || 0 <= idx < channels
    ensures channel <= 4 ==> idx == channel
    ensures channel == 5 || channel > 8 ==> idx == -1
  {
    if channel <= 4 then channel
    else if 6 <= channel <= 8 && channel - 1 < channels then channel - 1
    else -1
  }

  /**
    `disablePendingIgnSchedule(channel)` as written: cancels a PENDING event on
    the channel `IgnCaseIndex` selects and touches nothing else. Index 5 is a
    no-op and indices 6-8 reach channels 6-8.
   */
  function DisablePendingIgnSchedule(sys: Schedulers, channel: u8): (r: Schedulers)
    requires Configured(sys)
    ensures r.fuel == sys.fuel && r.angles == sys.angles && |r.ign| == |sys.ign|
    ensures forall i :: 0 <= i < |sys.ign| ==>
              r.ign[i] == (if i == IgnCaseIndex(channel, |sys.ign|) && sys.ign[i].status == Pending
                           then sys.ign[i].(status := Off) else sys.ign[i])
    ensures channel == 5 ==> r == sys
    ensures 6 <= channel <= 8 && channel <= |sys.ign| && sys.ign[channel - 1].status == Pending ==>
              r.ign[channel - 1].status == Off
  {
    var idx := IgnCaseIndex(channel, |sys.ign|);
    if idx >= 0 then sys.(ign := sys.ign[idx := CancelPendingIgn(sys.ign[idx])])
    else sys
  }

  /**
    The cancellation the callers evidently expect, 0-based like the fuel
    version: index `channel` selects ignition channel `channel + 1`.
   */
  function DisablePendingIgnScheduleIntended(sys: Schedulers, channel: u8): (r: Schedulers)
    requires Configured(sys)
    ensures r.fuel == sys.fuel && r.angles == sys.angles && |r.ign| == |sys.ign|
    ensures forall i :: 0 <= i < |sys.ign| ==>
              r.ign[i] == (if i == channel && sys.ign[i].status == Pending
                           then sys.ign[i].(status := Off) else sys.ign[i])
  {
    if channel < |sys.ign| then sys.(ign := sys.ign[channel := CancelPendingIgn(sys.ign[channel])])
    else sys
  }

  /**
    The as-written cancellation misses channel 6: with index 5, a PENDING
    ignition channel 6 stays PENDING, whereas the fuel cancellation and the
    intended ignition cancellation both stop channel 6 for the same index.
   */
  lemma IgnitionCancelSkipsChannelSix(sys: Schedulers)
    requires Configured(sys) && |sys.ign| >= 6
    requires sys.ign[5].status == Pending && sys.fuel[5 % |sys.fuel|].status == Pending
    ensures DisablePendingIgnSchedule(sys, 5).ign[5].status == Pending
    ensures DisablePendingIgnScheduleIntended(sys, 5).ign[5].status == Off
    ensures |sys.fuel| >= 6 ==> DisablePendingFuelSchedule(sys, 5).fuel[5].status == Off
  {
  }

  /**
    The as-written cancellation with index 6 stops channel 6 rather than
    channel 7, so the 0-based index of channel 7 cancels the wrong channel.
   */
  lemma IgnitionCancelShiftedAboveFive(sys: Schedulers)
    requires Configured(sys) && |sys.ign| >= 7
    requires sys.ign[5].status == Pending && sys.ign[6].status == Pending
    ensures DisablePendingIgnSchedule(sys, 6).ign[5].status == Off
    ensures DisablePendingIgnSchedule(sys, 6).ign[6].status == Pending
    ensures DisablePendingIgnScheduleIntended(sys, 6).ign[6].status == Off
    ensures DisablePendingIgnScheduleIntended(sys, 6).ign[5].status == Pending
  {
  }

  // ---------------------------------------------------------------------------
  // Re-targeting a running dwell

  /**
    `refreshIgnitionSchedule1(timeToEnd)`: while ignition channel 1 is RUNNING
    and the new time to the spark is shorter than its dwell, its end compare
    and compare register are moved to `timeToEnd` after the counter. Nothing
    else changes, on that channel or any other.
   */
  function RefreshIgnitionSchedule1(sys: Schedulers, timeToEnd: u32, counter: u16): (r: Schedulers)
    requires Configured(sys)
    ensures r.fuel == sys.fuel && r.angles == sys.angles && |r.ign| == |sys.ign|
    ensures forall i :: 1 <= i < |sys.ign| ==> r.ign[i] == sys.ign[i]
    ensures sys.ign[0].status == Running && timeToEnd < sys.ign[0].duration ==>
              && r.ign[0].compare == r.ign[0].endCompare
              && (r.ign[0].endCompare - counter - UsToTicks(timeToEnd)) % U16_MOD == 0
              && r.ign[0].(compare := sys.ign[0].compare, endCompare := sys.ign[0].endCompare) == sys.ign[0]
    ensures !(sys.ign[0].status == Running && timeToEnd < sys.ign[0].duration) ==> r == sys
  {
    sys.(ign := sys.ign[0 := RetargetDwell(sys.ign[0], timeToEnd, counter)])
  }

  /**
    The re-targeting of one ignition record: a RUNNING dwell whose spark is
    now due sooner than its duration ends `timeToEnd` after the counter.
   */
  function RetargetDwell(s: IgnitionSchedule, timeToEnd: u32, counter: u16): (r: IgnitionSchedule)
    ensures s.status == Running && timeToEnd < s.duration ==>
              && r.compare == r.endCompare
              && (r.endCompare - counter - UsToTicks(timeToEnd)) % U16_MOD == 0
              && r.(compare := s.compare, endCompare := s.endCompare) == s
    ensures !(s.status == Running && timeToEnd < s.duration) ==> r == s
  {
    if s.status == Running && timeToEnd < s.duration then
      var end := CompareAfter(counter, UsToTicks(timeToEnd));
      s.(endCompare := end, compare := end)
    else s
  }

  // ---------------------------------------------------------------------------
  // Start-up

  /** `reset(schedule)` followed by the null-callback assignment of `initialiseSchedulers`. */
  function ResetFuel(s: FuelSchedule): (r: FuelSchedule)
    ensures r.status == Off && r.startFunction == NullCallback && r.endFunction == NullCallback
    ensures r.(status := s.status, startFunction := s.startFunction, endFunction := s.endFunction) == s
  {
    s.(status := Off, startFunction := NullCallback, endFunction := NullCallback)
  }

  function ResetIgnition(s: IgnitionSchedule): (r: IgnitionSchedule)
    ensures r.status == Off && r.startCallback == NullCallback && r.endCallback == NullCallback
    ensures r.(status := s.status, startCallback := s.startCallback, endCallback := s.endCallback) == s
  {
    s.(status := Off, startCallback := NullCallback, endCallback := NullCallback)
  }

  /** Timer-enable calls for channels `from .. to-1` of `bank`, in order. */
  function Enables(bank: Bank, from: nat, to: nat): (es: seq<ChannelEffect>)
    requires from <= to
    ensures |es| == to - from
    ensures forall k :: 0 <= k < |es| ==> es[k] == ChannelEffect(bank, from + k, TimerEnable)
  {
    seq(to - from, k requires 0 <= k < to - from => ChannelEffect(bank, from + k, TimerEnable))
  }

  function Zeros(n: nat): (z: seq<int>)
    ensures |z| == n && forall k :: 0 <= k < n ==> z[k] == 0
  {
    seq(n, _ => 0)
  }

  /**
    `initialiseSchedulers`: every channel becomes OFF with the do-nothing
    callbacks, every channel's timer interrupt is enabled (ignition channel
    5 twice, as its reset appears twice), and the channel and ignition angles
    are cleared. Compare values and queues are left as they were.
   */
  function InitialiseSchedulers(sys: Schedulers): (r: SchedulersStep)
    requires Configured(sys)
    ensures Configured(r.sys)
    ensures |r.sys.fuel| == |sys.fuel| && |r.sys.ign| == |sys.ign|
    ensures forall i :: 0 <= i < |sys.fuel| ==> r.sys.fuel[i] == ResetFuel(sys.fuel[i])
    ensures forall i :: 0 <= i < |sys.ign| ==> r.sys.ign[i] == ResetIgnition(sys.ign[i])
    ensures forall i :: 0 <= i < |sys.fuel| ==> r.sys.angles.injDegrees[i] == 0
    ensures forall i :: 0 <= i < |sys.ign| ==>
              r.sys.angles.ignDegrees[i] == 0 && r.sys.angles.ignStartAngle[i] == 0 && r.sys.angles.ignEndAngle[i] == 0
    ensures forall e :: e in r.effects ==> e.effect == TimerEnable
    ensures |r.effects| == |sys.fuel| + |sys.ign| + 1
    ensures forall i :: 0 <= i < |sys.fuel| ==> ChannelEffect(FuelBank, i, TimerEnable) in r.effects
    ensures forall i :: 0 <= i < |sys.ign| ==> ChannelEffect(IgnitionBank, i, TimerEnable) in r.effects
  {
    var nf, ni := |sys.fuel|, |sys.ign|;
    var fuel := seq(nf, i requires 0 <= i < nf => ResetFuel(sys.fuel[i]));
    var ign := seq(ni, i requires 0 <= i < ni => ResetIgnition(sys.ign[i]));
    var effects := Enables(FuelBank, 0, nf) + Enables(IgnitionBank, 0, 5)
                   + [ChannelEffect(IgnitionBank, 4, TimerEnable)] + Enables(IgnitionBank, 5, ni);
    assert forall i :: 0 <= i < nf ==> effects[i] == ChannelEffect(FuelBank, i, TimerEnable);
    assert forall i :: 0 <= i < 5 ==> effects[nf + i] == ChannelEffect(IgnitionBank, i, TimerEnable);
    assert forall i :: 5 <= i < ni ==> effects[nf + i + 1] == ChannelEffect(IgnitionBank, i, TimerEnable);
    SchedulersStep(Schedulers(fuel, ign, ChannelAngles(Zeros(nf), Zeros(ni), Zeros(ni), Zeros(ni))), effects)
  }
}

=== FILE: sensors.dfy ===
/**
  The arithmetic the sensor code applies after acquisition: the vehicle
  speed pulse ring buffer, the throttle position calibration, MAP range
  validation and the cycle-minimum MAP sampler, gear detection and the
  pressure sensor clamps.

  Raw ADC readings and `micros()` are inputs. The calibration curve
  `fastMap10Bit` (with its configured end points) and the smoothing filter
  `ADC_FILTER` (with its configured strength) are parameters, as are the
  `globals.h` constants `VALID_MAP_MIN`, `VALID_MAP_MAX`,
  `ERR_DEFAULT_MAP_LOW`, `ERR_DEFAULT_MAP_HIGH`, `VSS_SAMPLES` and
  `VSS_GEAR_HYSTERESIS`.
 */
module Sensors {
  import opened Machine

  // ---------------------------------------------------------------------------
  // Vehicle speed pulses

  /** `vssIndex` and `vssTimes`: the last `VSS_SAMPLES` pulse times, newest at `index`. */
  datatype VssBuffer = VssBuffer(index: u8, times: seq<u32>)

  predicate VssValid(b: VssBuffer, samples: nat) {
    2 <= samples <= 128 && |b.times| == samples && b.index < samples
  }

  /**
    `vssPulse`: advances the index cyclically and records `now` there; no
    other entry changes.
   */
  function VssPulse(b: VssBuffer, now: u32, samples: nat): (r: VssBuffer)
    requires VssValid(b, samples)
    ensures VssValid(r, samples)
    ensures r.index == (b.index + 1) % samples
    ensures r.times[r.index] == now
    ensures forall i :: 0 <= i < samples && i != r.index ==> r.times[i] == b.times[i]
  {
    var i := ToU8(b.index + 1);
    var i' := if i == samples then 0 else i;
    SmallMod(b.index + 1, samples);
    VssBuffer(i', b.times[i' := now])
  }

  /**
    `vssGetPulseGap(h)`: the time between the `h`-th newest pulse and the one
    before it, read around the ring: entry `j = index - h` (cyclically) minus
    entry `j - 1` (cyclically), as an unsigned 32-bit difference. The index is
    computed in an `int8_t`.
   */
  function VssGetPulseGap(b: VssBuffer, h: u8, samples: nat): (gap: u32)
    requires VssValid(b, samples) && h < samples
    ensures var j := (b.index - h) % samples;
            gap == ToU32(b.times[j] as int - b.times[(j + samples - 1) % samples] as int)
  {
    SmallMod(b.index - h, samples);
    SmallMod((b.index - h) % samples + samples - 1, samples);
    var t := ToInt8(b.index - h);
    var t' := if t < 0 then ToInt8(t + samples) else t;
    if t' > 0 then ToU32(b.times[t'] as int - b.times[t' - 1] as int)
    else ToU32(b.times[0] as int - b.times[samples - 1] as int)
  }

  /** Right after a pulse, the newest gap is the time since the previous pulse. */
  lemma GapAfterPulse(b: VssBuffer, now: u32, samples: nat)
    requires VssValid(b, samples)
    ensures VssGetPulseGap(VssPulse(b, now, samples), 0, samples) == ToU32(now as int - b.times[b.index] as int)
  {
    var r := VssPulse(b, now, samples);
    SmallMod(r.index, samples);
    SmallMod(r.index + samples - 1, samples);
    SmallMod(b.index + 1, samples);
  }

  // ---------------------------------------------------------------------------
  // Throttle position

  /**
    The calibration branch of `readTPS`: with `tpsMax > tpsMin` the (filtered)
    ADC byte is clamped to the calibration range and scaled to 0-200 (half
    percent); otherwise the sensor is wired in reverse, and the inverted value
    `255 - adc` is clamped to the inverted range and scaled. Equal calibration
    points would make the scaling divide by zero.
   */
  function ReadTpsCalibrated(tpsADC: u8, tpsMin: u8, tpsMax: u8): (tps: int)
    requires tpsMin != tpsMax
    ensures 0 <= tps <= 200
    ensures tpsMax > tpsMin && tpsADC <= tpsMin ==> tps == 0
    ensures tpsMax > tpsMin && tpsADC >= tpsMax ==> tps == 200
    ensures tpsMax < tpsMin && tpsADC >= tpsMin ==> tps == 0
    ensures tpsMax < tpsMin && tpsADC <= tpsMax ==> tps == 200
  {
    if tpsMax > tpsMin then
      var adc := if tpsADC < tpsMin then tpsMin else if tpsADC > tpsMax then tpsMax else tpsADC;
      ArduinoMap(adc, tpsMin, tpsMax, 0, 200)
    else
      var inverted := 255 - tpsADC;
      var invMax := 255 - tpsMax;
      var invMin := 255 - tpsMin;
      var adc := if inverted > invMax then invMax else if inverted < invMin then invMin else inverted;
      ArduinoMap(adc, invMin, invMax, 0, 200)
  }

  /**
    More throttle reads as more throttle: the position is nondecreasing in
    the ADC value for normal wiring and nonincreasing for reversed wiring.
   */
  lemma TpsMonotone(a: u8, b: u8, tpsMin: u8, tpsMax: u8)
    requires tpsMin != tpsMax && a <= b
    ensures tpsMax > tpsMin ==> ReadTpsCalibrated(a, tpsMin, tpsMax) <= ReadTpsCalibrated(b, tpsMin, tpsMax)
    ensures tpsMax < tpsMin ==> ReadTpsCalibrated(a, tpsMin, tpsMax) >= ReadTpsCalibrated(b, tpsMin, tpsMax)
  {
    if tpsMax > tpsMin {
      var ca := if a < tpsMin then tpsMin else if a > tpsMax then tpsMax else a;
      var cb := if b < tpsMin then tpsMin else if b > tpsMax then tpsMax else b;
      ArduinoMapMonotone(ca, cb, tpsMin, tpsMax, 0, 200);
    } else {
      var invMax, invMin := 255 - tpsMax, 255 - tpsMin;
      var ia, ib := 255 - a, 255 - b;
      var ca := if ia > invMax then invMax else if ia < invMin then invMin else ia;
      var cb := if ib > invMax then invMax else if ib < invMin then invMin else ib;
      ArduinoMapMonotone(cb, ca, invMin, invMax, 0, 200);
    }
  }

  /**
    Reversed wiring mirrors normal wiring: a sensor wired backwards reads
    the same position as the mirrored ADC value would with the calibration
    points mirrored.
   */
  lemma TpsReversedIsMirrored(adc: u8, tpsMin: u8, tpsMax: u8)
    requires tpsMax < tpsMin
    ensures ReadTpsCalibrated(adc, tpsMin, tpsMax) == ReadTpsCalibrated(255 - adc, 255 - tpsMin, 255 - tpsMax)
  {
  }

  // ---------------------------------------------------------------------------
  // MAP

  /** The MAP limits and defaults of `globals.h`. */
  datatype MapLimits = MapLimits(validMin: int, validMax: int, errDefaultLow: int, errDefaultHigh: int)

  datatype ErrorCode = ErrMapLow | ErrMapHigh

  /** Calls into the error log. */
  datatype ErrorCall = SetError(code: ErrorCode) | ClearError(code: ErrorCode)

  datatype Validated = Validated(kpa: int, mapErrorCount: u8, calls: seq<ErrorCall>)

  /**
    `validateMAP`: a pressure below the valid range is replaced by the low
    default, one above by the high default; both count an error and log it.
    A pressure in range is kept, resets the error count and, when any error
    is logged, clears both MAP errors.
   */
  function ValidateMap(kpa: int, mapErrorCount: u8, errorCount: nat, lim: MapLimits): (r: Validated)
    ensures kpa < lim.validMin ==>
              r == Validated(lim.errDefaultLow, ToU8(mapErrorCount + 1), [SetError(ErrMapLow)])
    ensures lim.validMin <= kpa && kpa > lim.validMax ==>
              r == Validated(lim.errDefaultHigh, ToU8(mapErrorCount + 1), [SetError(ErrMapHigh)])
    ensures lim.validMin <= kpa <= lim.validMax ==>
              && r.kpa == kpa && r.mapErrorCount == 0
              && r.calls == (if errorCount > 0 then [ClearError(ErrMapHigh), ClearError(ErrMapLow)] else [])
  {
    if kpa < lim.validMin then Validated(lim.errDefaultLow, ToU8(mapErrorCount + 1), [SetError(ErrMapLow)])
    else if kpa > lim.validMax then Validated(lim.errDefaultHigh, ToU8(mapErrorCount + 1), [SetError(ErrMapHigh)])
    else Validated(kpa, 0, if errorCount > 0 then [ClearError(ErrMapHigh), ClearError(ErrMapLow)] else [])
  }

  /**
    After validation the pressure is either in range or one of the two
    defaults, and validating a validated in-range value changes nothing.
   */
  lemma ValidatedMapIsSafe(kpa: int, mapErrorCount: u8, errorCount: nat, lim: MapLimits)
    ensures var r := ValidateMap(kpa, mapErrorCount, errorCount, lim);
            || lim.validMin <= r.kpa <= lim.validMax
            || r.kpa == lim.errDefaultLow
            || r.kpa == lim.errDefaultHigh
    ensures var r := ValidateMap(kpa, mapErrorCount, errorCount, lim);
            lim.validMin <= kpa <= lim.validMax ==> ValidateMap(r.kpa, r.mapErrorCount, errorCount, lim).kpa == kpa
    ensures var r := ValidateMap(kpa, mapErrorCount, errorCount, lim);
            (r.mapErrorCount == 0) <==> (lim.validMin <= kpa <= lim.validMax || mapErrorCount == 255)
  {
  }

  /** The MAP sensor state `readMAP` maintains. */
  datatype MapState = MapState(
    kpa: int,
    mapADC: int,
    mapLast: int,
    mapTime: u32,
    mapLastTime: u32,
    mapErrorCount: u8,
    curRev: int,
    runningValue: u32)

  /** The sensor's own calibration: the filter and the ADC-to-kPa curve. */
  datatype MapCalibration = MapCalibration(filter: (int, int) -> int, fastMap: int -> int)

  /**
    `instanteneousMAPReading` (without EMAP): the previous pressure and its
    time are kept for the acceleration enrichment, a reading at or beyond
    either limit counts an error (any other resets the count), the ADC value
    is filtered once start-up is over, and the pressure is its calibrated
    value, never negative.
   */
  function InstantaneousMapReading(st: MapState, reading: u16, initialisationComplete: bool, now: u32,
                                   lim: MapLimits, cal: MapCalibration): (r: MapState)
    ensures r.mapLast == st.kpa && r.mapLastTime == st.mapTime && r.mapTime == now
    ensures (reading >= lim.validMax || reading <= lim.validMin) ==> r.mapErrorCount == ToU8(st.mapErrorCount + 1)
    ensures lim.validMin < reading < lim.validMax ==> r.mapErrorCount == 0
    ensures r.mapADC == (if initialisationComplete then cal.filter(reading, st.mapADC) else reading)
    ensures r.kpa >= 0
    ensures r.kpa == (if cal.fastMap(r.mapADC) < 0 then 0 else cal.fastMap(r.mapADC))
    ensures r.curRev == st.curRev && r.runningValue == st.runningValue
  {
    var errors := if reading >= lim.validMax || reading <= lim.validMin then ToU8(st.mapErrorCount + 1) else 0;
    var adc := if initialisationComplete then cal.filter(reading, st.mapADC) else reading;
    var kpa := cal.fastMap(adc);
    st.(mapLast := st.kpa, mapLastTime := st.mapTime, mapTime := now, mapErrorCount := errors,
        mapADC := adc, kpa := if kpa < 0 then 0 else kpa)
  }

  /**
    Two readings in a row: the second keeps the first one's pressure and time
    as the previous ones, two out-of-range readings count two errors (while
    the byte counter does not wrap) and an in-range second reading clears
    them, and before start-up completes the second pressure depends only on
    the second reading.
   */
  lemma MapReadsChain(st: MapState, x1: u16, x2: u16, init: bool, t1: u32, t2: u32,
                      lim: MapLimits, cal: MapCalibration)
    ensures var a := InstantaneousMapReading(st, x1, init, t1, lim, cal);
            var b := InstantaneousMapReading(a, x2, init, t2, lim, cal);
            && b.mapLast == a.kpa && b.mapLastTime == t1 && b.mapTime == t2
            && ((&& (x1 >= lim.validMax || x1 <= lim.validMin)
                 && (x2 >= lim.validMax || x2 <= lim.validMin)
                 && st.mapErrorCount + 2 < 0x100)
                ==> b.mapErrorCount == st.mapErrorCount + 2)
            && (lim.validMin < x2 < lim.validMax ==> b.mapErrorCount == 0)
            && (!init ==> b.mapADC == x2 && b.kpa == InstantaneousMapReading(st, x2, init, t2, lim, cal).kpa)
  {
  }

  /** The running minimum a cycle-minimum sample leaves. */
  function MinSample(running: u32, reading: u16, lim: MapLimits): (r: u32)
    ensures r <= running
    ensures lim.validMin < reading < lim.validMax ==> r <= reading
    ensures r == running || r == reading
  {
    if lim.validMin < reading < lim.validMax && reading < running then reading else running
  }

  /** The running value a closed cycle restarts from: above any 10-bit reading. */
  const MAP_CYCLE_RESTART: int := 1023

  /**
    `readMAP` in cycle-minimum mode (mode 2). Above the switch point, while
    the two revolutions of the cycle last, each valid reading lowers the
    running minimum (an invalid one counts an error); when the cycle is over
    the minimum becomes the ADC value, is calibrated and validated, and the
    next cycle starts at 1023 from the current revolution. Below the switch
    point the reading is taken instantaneously and the running value follows
    it.
   */
  function ReadMapCycleMinimum(st: MapState, reading: u16, rpmDiv100: int, mapSwitchPoint: int, startRevolutions: int,
                               initialisationComplete: bool, errorCount: nat, now: u32,
                               lim: MapLimits, cal: MapCalibration): (r: (MapState, seq<ErrorCall>))
    ensures rpmDiv100 > mapSwitchPoint && (st.curRev == startRevolutions || st.curRev + 1 == startRevolutions) ==>
              && r.0.runningValue == MinSample(st.runningValue, reading, lim)
              && r.0.runningValue <= st.runningValue
              && (lim.validMin < reading < lim.validMax ==> r.0.mapErrorCount == st.mapErrorCount)
              && (!(lim.validMin < reading < lim.validMax) ==> r.0.mapErrorCount == ToU8(st.mapErrorCount + 1))
              && r.0.(runningValue := st.runningValue, mapErrorCount := st.mapErrorCount) == st
              && r.1 == []
    ensures rpmDiv100 > mapSwitchPoint && !(st.curRev == startRevolutions || st.curRev + 1 == startRevolutions) ==>
              && r.0.mapADC == st.runningValue
              && r.0.runningValue == MAP_CYCLE_RESTART
              && r.0.curRev == startRevolutions
              && r.0.mapLast == st.kpa && r.0.mapLastTime == st.mapTime && r.0.mapTime == now
              && var v := ValidateMap(cal.fastMap(st.runningValue), st.mapErrorCount, errorCount, lim);
                 r.0.kpa == v.kpa && r.0.mapErrorCount == v.mapErrorCount && r.1 == v.calls
    ensures rpmDiv100 <= mapSwitchPoint ==>
              && r.0.runningValue == ToU32(r.0.mapADC)
              && r.0.(runningValue := st.runningValue)
                   == InstantaneousMapReading(st, reading, initialisationComplete, now, lim, cal)
              && r.1 == []
  {
    if rpmDiv100 > mapSwitchPoint then
      if st.curRev == startRevolutions || st.curRev + 1 == startRevolutions then
        if lim.validMin < reading < lim.validMax then
          (st.(runningValue := MinSample(st.runningValue, reading, lim)), [])
        else
          (st.(mapErrorCount := ToU8(st.mapErrorCount + 1)), [])
      else
        var v := ValidateMap(cal.fastMap(st.runningValue), st.mapErrorCount, errorCount, lim);
        (st.(mapLast := st.kpa, mapLastTime := st.mapTime, mapTime := now, mapADC := st.runningValue,
             kpa := v.kpa, mapErrorCount := v.mapErrorCount, curRev := startRevolutions,
             runningValue := MAP_CYCLE_RESTART),
         v.calls)
    else
      var inst := InstantaneousMapReading(st, reading, initialisationComplete, now, lim, cal);
      (inst.(runningValue := ToU32(inst.mapADC)), [])
  }

  /** The readings of one cycle fed to the sampler in order, all within the cycle's revolutions. */
  function SampleCycle(st: MapState, readings: seq<u16>, rpmDiv100: int, mapSwitchPoint: int,
                       errorCount: nat, now: u32, lim: MapLimits, cal: MapCalibration): (r: MapState)
    decreases |readings|
  {
    if readings == [] then st
    else
      var next := ReadMapCycleMinimum(st, readings[0], rpmDiv100, mapSwitchPoint,
                                      st.curRev, true, errorCount, now, lim, cal).0;
      SampleCycle(next, readings[1..], rpmDiv100, mapSwitchPoint, errorCount, now, lim, cal)
  }

  /**
    Within a cycle the running value is the minimum of its starting value and
    every valid reading: it never increases, lies at or below each valid
    reading, and is either the starting value or one of the readings.
   */
  lemma {:induction false} CycleMinimum(st: MapState, readings: seq<u16>, rpmDiv100: int, mapSwitchPoint: int,
                                        errorCount: nat, now: u32, lim: MapLimits, cal: MapCalibration)
    requires rpmDiv100 > mapSwitchPoint
    ensures var r := SampleCycle(st, readings, rpmDiv100, mapSwitchPoint, errorCount, now, lim, cal);
            && r.runningValue <= st.runningValue
            && (forall i :: 0 <= i < |readings| && lim.validMin < readings[i] < lim.validMax ==>
                  r.runningValue <= readings[i])
            && (r.runningValue == st.runningValue || exists i :: 0 <= i < |readings| && r.runningValue == readings[i])
            && r.curRev == st.curRev
    decreases |readings|
  {
    if readings != [] {
      var next := ReadMapCycleMinimum(st, readings[0], rpmDiv100, mapSwitchPoint, st.curRev, true,
                                      errorCount, now, lim, cal).0;
      CycleMinimum(next, readings[1..], rpmDiv100, mapSwitchPoint, errorCount, now, lim, cal);
      var r := SampleCycle(st, readings, rpmDiv100, mapSwitchPoint, errorCount, now, lim, cal);
      assert r == SampleCycle(next, readings[1..], rpmDiv100, mapSwitchPoint, errorCount, now, lim, cal);
      forall i | 0 <= i < |readings| && lim.validMin < readings[i] < lim.validMax
        ensures r.runningValue <= readings[i]
      {
        if i > 0 {
          assert readings[i] == readings[1..][i - 1];
        }
      }
      if r.runningValue != st.runningValue && r.runningValue != next.runningValue {
        var k :| 0 <= k < |readings[1..]| && r.runningValue == readings[1..][k];
        assert r.runningValue == readings[k + 1];
      }
    }
  }

  // ---------------------------------------------------------------------------
  // Gear detection

  /**
    Whether a measured ratio lies strictly inside a gear's band. The band
    limits `ratio - hysteresis` and `ratio + hysteresis` are computed in the
    AVR's 16-bit unsigned arithmetic.
   */
  predicate InBand(pulsesPer1000rpm: u16, ratio: u16, hysteresis: nat) {
    ToU16(ratio - hysteresis) < pulsesPer1000rpm < ToU16(ratio + hysteresis)
  }

  /** Away from the 16-bit wrap, the band is the open interval of width `2 * hysteresis` around the ratio. */
  lemma InBandMeansClose(p: u16, ratio: u16, hysteresis: nat)
    requires hysteresis <= ratio && ratio + hysteresis < U16_MOD
    ensures InBand(p, ratio, hysteresis) <==> (ratio - hysteresis < p < ratio + hysteresis)
  {
  }

  /**
    `getGear`: stationary is gear 0; otherwise the first of gears 1-6 whose
    band contains the measured ratio (`vss * 10000 / RPM`, by the firmware's
    32/16 division), and the previous gear when none does. The firmware
    tests the six bands in an `if`/`else if` chain, which is the search of
    `FirstInBand` from gear 1.
   */
  function GetGear(vss: u16, rpm: u16, previousGear: u8, ratios: seq<u16>, hysteresis: nat,
                   udiv: (int, int) -> u16): (gear: u8)
    requires |ratios| == 6
    ensures vss == 0 ==> gear == 0
    ensures vss > 0 ==>
              var p := udiv(vss * 10000, rpm);
              && ((exists k :: 0 <= k < 6 && InBand(p, ratios[k], hysteresis)) ==>
                    && 1 <= gear <= 6
                    && InBand(p, ratios[gear - 1], hysteresis)
                    && forall k :: 0 <= k < gear - 1 ==> !InBand(p, ratios[k], hysteresis))
              && ((forall k :: 0 <= k < 6 ==> !InBand(p, ratios[k], hysteresis)) ==> gear == previousGear)
  {
    if vss == 0 then 0
    else
      var i := FirstInBand(udiv(vss * 10000, rpm), ratios, hysteresis, 0);
      if i < 6 then (i + 1) as u8 else previousGear
  }

  /** The first gear index from `k` on whose band contains `p`, or `|ratios|` when there is none. */
  function FirstInBand(p: u16, ratios: seq<u16>, hysteresis: nat, k: nat): (i: nat)
    requires k <= |ratios|
    ensures k <= i <= |ratios|
    ensures i < |ratios| ==> InBand(p, ratios[i], hysteresis)
    ensures forall j :: k <= j < i ==> !InBand(p, ratios[j], hysteresis)
    decreases |ratios| - k
  {
    if k == |ratios| then k
    else if InBand(p, ratios[k], hysteresis) then k
    else FirstInBand(p, ratios, hysteresis, k + 1)
  }

  // ---------------------------------------------------------------------------
  // Pressure sensors

  /** A pressure sensor's enable flag, calibration and upper limit. */
  datatype PressureConfig = PressureConfig(enable: u8, fastMap: int -> int, filter: (int, int) -> int, maxPressure: u8)

  /**
    `getFuelPressure` and `getOilPressure` (identical bodies): a disabled
    sensor reads 0; an enabled one is calibrated and smoothed in an
    `int16_t`, clamped to the configured maximum and to zero, and returned
    as a byte.
   */
  function GetPressure(cfg: PressureConfig, reading: u16, previous: int): (p: u8)
    ensures cfg.enable == 0 ==> p == 0
    ensures cfg.enable > 0 ==>
              var v := ToInt16(cfg.filter(ToInt16(cfg.fastMap(reading)), previous));
              && p <= cfg.maxPressure
              && (0 <= v <= cfg.maxPressure ==> p == v)
              && (v > cfg.maxPressure ==> p == cfg.maxPressure)
              && (v < 0 ==> p == 0)
  {
    if cfg.enable > 0 then
      var v := ToInt16(cfg.filter(ToInt16(cfg.fastMap(reading)), previous));
      var clampedHigh := if v > cfg.maxPressure then cfg.maxPressure else v;
      ToU8(if clampedHigh < 0 then 0 else clampedHigh)
    else 0
  }

  /**
    An enabled pressure sensor's clamp is monotone in the smoothed value:
    a higher smoothed value never reads lower.
   */
  lemma PressureMonotone(cfg: PressureConfig, r1: u16, prev1: int, r2: u16, prev2: int)
    requires cfg.enable > 0
    requires ToInt16(cfg.filter(ToInt16(cfg.fastMap(r1)), prev1)) <= ToInt16(cfg.filter(ToInt16(cfg.fastMap(r2)), prev2))
    ensures GetPressure(cfg, r1, prev1) <= GetPressure(cfg, r2, prev2)
  {
  }

}

=== FILE: timers.dfy ===
/**
  The 1 ms supervisor interrupt: the loop counters that raise the slower
  timer flags, the over-dwell protection of the ignition coils, the tacho
  power-on sweep and the tacho output pulse, and the 10 Hz bookkeeping.

  `micros()`, the dwell limit, the configuration pages and the live engine
  status are inputs of a tick. The constants `TACHO_SWEEP_TIME_MS` and
  `TACHO_SWEEP_RAMP_MS` live in `globals.h`, which is not part of this model;
  they are inputs too.
 */
module Timers {
  import opened Machine
  import opened Scheduler

  /** The flags of `TIMER_mask` this interrupt raises. */
  datatype TimerBit = Hz1000 | Hz200 | Hz30 | Hz15 | Hz10 | Hz4 | Hz1

  /** The loop counters; `loopSec` is a 16-bit `int`, the others bytes. */
  datatype Loops = Loops(loop5ms: u8, loop33ms: u8, loop66ms: u8, loop100ms: u8, loop250ms: u8, loopSec: i16)

  datatype TachoFlag = TachoInactive | Ready | Active

  datatype TimerState = TimerState(
    msCounter: u32,
    loops: Loops,
    lastRPM100ms: u16,
    tachoEndTime: u8,
    tachoFlag: TachoFlag,
    tachoSweepEnabled: bool,
    tachoSweepAccum: u16,
    tachoSweepIncr: u16,
    tachoAlt: bool,
    rpmDOT: int,
    runSecsX10: nat,
    secl: nat)

  /** Everything a tick reads from outside the timer state. */
  datatype TickInput = TickInput(
    now: u32,                 // micros()
    dwellLimitUs: u16,
    useDwellLim: u8,
    ignCranklock: bool,
    rpm: u16,
    crankRPM: u16,
    engine: u8,
    engineRunning: bool,      // BIT_ENGINE_RUN of the engine status
    tachoDiv: u8,
    tachoDuration: u8,
    sweepTimeMs: u32,
    sweepRampMs: u32)

  // ---------------------------------------------------------------------------
  // Loop counters

  /** Every counter below the count at which it is reset. */
  predicate LoopsInv(l: Loops) {
    l.loop5ms < 5 && l.loop33ms < 33 && l.loop66ms < 66 && l.loop100ms < 100 && l.loop250ms < 250
    && 0 <= l.loopSec < 1000
  }

  const InitialLoops: Loops := Loops(0, 0, 0, 0, 0, 0)

  /**
    One millisecond of the loop counters: each counter is incremented and,
    on reaching its period, reset to zero with its flag raised. The 1 kHz
    flag is raised on every tick.
   */
  function AdvanceLoops(l: Loops): (r: (Loops, set<TimerBit>))
    ensures Hz1000 in r.1
    ensures LoopsInv(l) ==> LoopsInv(r.0)
    ensures LoopsInv(l) ==>
              && (Hz200 in r.1 <==> l.loop5ms == 4)
              && (Hz30 in r.1 <==> l.loop33ms == 32)
              && (Hz15 in r.1 <==> l.loop66ms == 65)
              && (Hz10 in r.1 <==> l.loop100ms == 99)
              && (Hz4 in r.1 <==> l.loop250ms == 249)
              && (Hz1 in r.1 <==> l.loopSec == 999)
  {
    var l5, l33, l66 := ToU8(l.loop5ms + 1), ToU8(l.loop33ms + 1), ToU8(l.loop66ms + 1);
    var l100, l250, lSec := ToU8(l.loop100ms + 1), ToU8(l.loop250ms + 1), ToInt16(l.loopSec + 1);
    (Loops(if l5 == 5 then 0 else l5,
           if l33 == 33 then 0 else l33,
           if l66 == 66 then 0 else l66,
           if l100 == 100 then 0 else l100,
           if l250 == 250 then 0 else l250,
           if lSec == 1000 then 0 else lSec),
     {Hz1000}
     + (if l5 == 5 then {Hz200} else {})
     + (if l33 == 33 then {Hz30} else {})
     + (if l66 == 66 then {Hz15} else {})
     + (if l100 == 100 then {Hz10} else {})
     + (if l250 == 250 then {Hz4} else {})
     + (if lSec == 1000 then {Hz1} else {}))
  }

  /** The counters after `n` ticks from `initialiseTimers`. */
  function LoopsAfter(n: nat): Loops
  {
    if n == 0 then InitialLoops else AdvanceLoops(LoopsAfter(n - 1)).0
  }

  /** After `n` ticks each counter holds the milliseconds since its last reset. */
  lemma {:induction false} LoopsAfterCount(n: nat)
    ensures LoopsAfter(n) == Loops(n % 5, n % 33, n % 66, n % 100, n % 250, n % 1000)
    ensures LoopsInv(LoopsAfter(n))
  {
    if n > 0 {
      var m := n - 1;
      LoopsAfterCount(m);
      assert LoopsAfter(n) == AdvanceLoops(LoopsAfter(m)).0;
      AdvanceCounters(LoopsAfter(m));
      NextResidues(m);
    }
  }

  /** The residues of `m + 1` are the residues of `m` stepped on, with wrap-around. */
  lemma NextResidues(m: nat)
    ensures Loops((m + 1) % 5, (m + 1) % 33, (m + 1) % 66, (m + 1) % 100, (m + 1) % 250, (m + 1) % 1000)
         == Loops(if m % 5 == 4 then 0 else m % 5 + 1,
                  if m % 33 == 32 then 0 else m % 33 + 1,
                  if m % 66 == 65 then 0 else m % 66 + 1,
                  if m % 100 == 99 then 0 else m % 100 + 1,
                  if m % 250 == 249 then 0 else m % 250 + 1,
                  if m % 1000 == 999 then 0 else m % 1000 + 1)
  {
    ModSucc(m, 5); ModSucc(m, 33); ModSucc(m, 66); ModSucc(m, 100); ModSucc(m, 250); ModSucc(m, 1000);
  }

  /** On counters within their periods, a tick is a step to the next residue. */
  lemma AdvanceCounters(l: Loops)
    requires LoopsInv(l)
    ensures AdvanceLoops(l).0 == Loops(
              if l.loop5ms == 4 then 0 else l.loop5ms + 1,
              if l.loop33ms == 32 then 0 else l.loop33ms + 1,
              if l.loop66ms == 65 then 0 else l.loop66ms + 1,
              if l.loop100ms == 99 then 0 else l.loop100ms + 1,
              if l.loop250ms == 249 then 0 else l.loop250ms + 1,
              if l.loopSec == 999 then 0 else l.loopSec + 1)
  {
  }

  /**
    The flags of tick `n` (counting from 1) are raised exactly on the
    multiples of their periods: 200 Hz every 5 ms, 30 Hz every 33 ms, 15 Hz
    every 66 ms, 10 Hz every 100 ms, 4 Hz every 250 ms and 1 Hz every 1000 ms.
   */
  lemma FlagPeriods(n: nat)
    requires n >= 1
    ensures var bits := AdvanceLoops(LoopsAfter(n - 1)).1;
            && Hz1000 in bits
            && (Hz200 in bits <==> n % 5 == 0)
            && (Hz30 in bits <==> n % 33 == 0)
            && (Hz15 in bits <==> n % 66 == 0)
            && (Hz10 in bits <==> n % 100 == 0)
            && (Hz4 in bits <==> n % 250 == 0)
            && (Hz1 in bits <==> n % 1000 == 0)
  {
    LoopsAfterCount(n - 1);
    var m := n - 1;
    ModSucc(m, 5); ModSucc(m, 33); ModSucc(m, 66); ModSucc(m, 100); ModSucc(m, 250); ModSucc(m, 1000);
  }

  // ---------------------------------------------------------------------------
  // Over-dwell protection

  /**
    `applyOverDwellCheck`: a coil that is charging and started
    before `target` (= `micros() - dwellLimit_uS` in 32-bit unsigned
    arithmetic) has its spark fired now and is marked OFF. The timer is not
    disabled, the decoder flag and the ignition counters are untouched.
   */
  function ApplyOverDwellCheck(s: IgnitionSchedule, target: u32): (r: Step<IgnitionSchedule>)
    ensures s.status == Running && s.startTime < target ==>
              r == Step(s.(status := Off), [Invoke(s.endCallback)])
    ensures !(s.status == Running && s.startTime < target) ==> r == Step(s, [])
    ensures !(r.sched.status == Running && r.sched.startTime < target)
  {
    if s.status == Running && s.startTime < target then Step(s.(status := Off), [Invoke(s.endCallback)])
    else Step(s, [])
  }

  /** The over-dwell target time of a tick. */
  function OverDwellTarget(now: u32, dwellLimitUs: u16): (t: u32)
    ensures now >= dwellLimitUs ==> t == now - dwellLimitUs
    ensures now < dwellLimitUs ==> t == now - dwellLimitUs + U32_MOD
  {
    ToU32(now - dwellLimitUs)
  }

  /**
    Away from the wrap of `micros()`, a coil is cut exactly when it has been
    charging for longer than the dwell limit.
   */
  lemma OverDwellMeansLongDwell(s: IgnitionSchedule, now: u32, dwellLimitUs: u16)
    requires dwellLimitUs <= now && s.startTime <= now
    ensures (ApplyOverDwellCheck(s, OverDwellTarget(now, dwellLimitUs)).sched.status == Off)
              <==> (s.status == Off || (s.status == Running && now - s.startTime > dwellLimitUs))
  {
  }

  /**
    The over-dwell pass over the ignition channels from index `from` on, in
    channel order.
   */
  function OverDwellFrom(ign: seq<IgnitionSchedule>, target: u32, from: nat): (r: (seq<IgnitionSchedule>, seq<ChannelEffect>))
    requires from <= |ign|
    ensures |r.0| == |ign|
    ensures forall i :: 0 <= i < from ==> r.0[i] == ign[i]
    ensures forall i :: from <= i < |ign| ==> r.0[i] == ApplyOverDwellCheck(ign[i], target).sched
    ensures forall e :: e in r.1 ==>
              from <= e.channel < |ign| && e.bank == IgnitionBank
              && e.effect == Invoke(ign[e.channel].endCallback)
              && ign[e.channel].status == Running && r.0[e.channel].status == Off
    ensures forall i :: from <= i < |ign| && ign[i].status == Running && ign[i].startTime < target ==>
              ChannelEffect(IgnitionBank, i, Invoke(ign[i].endCallback)) in r.1
    decreases |ign| - from
  {
    if from == |ign| then (ign, [])
    else
      var step := ApplyOverDwellCheck(ign[from], target);
      var rest := OverDwellFrom(ign[from := step.sched], target, from + 1);
      var here := seq(|step.effects|, k requires 0 <= k < |step.effects| => ChannelEffect(IgnitionBank, from, step.effects[k]));
      assert forall i :: from < i < |ign| ==> ign[from := step.sched][i] == ign[i];
      assert ign[from].status == Running && ign[from].startTime < target ==>
               here[0] == ChannelEffect(IgnitionBank, from, Invoke(ign[from].endCallback));
      (rest.0, here + rest.1)
  }

  /**
    After the pass no channel is still charging from before the target, and
    every channel is either unchanged or switched OFF.
   */
  lemma OverDwellLeavesNoLongDwell(ign: seq<IgnitionSchedule>, target: u32)
    ensures var r := OverDwellFrom(ign, target, 0).0;
            forall i :: 0 <= i < |ign| ==>
              && !(r[i].status == Running && r[i].startTime < target)
              && (r[i] == ign[i] || r[i] == ign[i].(status := Off))
  {
  }

  // ---------------------------------------------------------------------------
  // Tacho sweep and output

  const MS_PER_SEC: int := 1000

  datatype Sweep = Sweep(enabled: bool, accum: u16, flag: TachoFlag)

  /**
    The amount the power-on sweep adds in one millisecond: the increment,
    ramped linearly from 0 over the ramp time.
   */
  function SweepIncrement(ms: u32, incr: u16, sweepRampMs: u32): (add: int)
    requires sweepRampMs > 0
    ensures 0 <= add <= incr
    ensures ms >= sweepRampMs ==> add == incr
    ensures ms == 0 ==> add == 0
  {
    if ms < sweepRampMs then ArduinoMap(ms, 0, sweepRampMs, 0, incr) else incr
  }

  /**
    The power-on tacho sweep: it ends when the engine turns or the sweep time
    is over; otherwise the accumulator grows by the ramped increment, and
    when it reaches 1000 a tacho pulse is made ready and 1000 is taken off.
   */
  function SweepStep(enabled: bool, accum: u16, flag: TachoFlag, incr: u16, ms: u32, engine: u8,
                     sweepTimeMs: u32, sweepRampMs: u32): (r: Sweep)
    requires sweepRampMs > 0
    ensures !enabled ==> r == Sweep(false, accum, flag)
    ensures enabled && (engine != 0 || ms >= sweepTimeMs) ==> r == Sweep(false, accum, flag)
    ensures enabled && engine == 0 && ms < sweepTimeMs ==>
              var total := accum + SweepIncrement(ms, incr, sweepRampMs);
              && (MS_PER_SEC <= total < U16_MOD ==> r == Sweep(true, total - MS_PER_SEC, Ready))
              && (total < MS_PER_SEC ==> r == Sweep(true, total, flag))
    ensures enabled && engine == 0 && ms < sweepTimeMs && accum < MS_PER_SEC && incr <= MS_PER_SEC ==>
              && r.enabled
              && r.accum < MS_PER_SEC
              && (r.flag == Ready || r.flag == flag)
              && (r.flag != flag ==> r.accum < accum + incr)
    ensures r.flag == flag || r.flag == Ready
  {
    if !enabled then Sweep(false, accum, flag)
    else if engine != 0 || ms >= sweepTimeMs then Sweep(false, accum, flag)
    else
      var acc := ToU16(accum + SweepIncrement(ms, incr, sweepRampMs));
      if acc >= MS_PER_SEC then Sweep(true, acc - MS_PER_SEC, Ready)
      else Sweep(true, acc, flag)
  }

  /** Where a run of sweep milliseconds leaves the sweep, and how many pulses it requested. */
  datatype SweepTotal = SweepTotal(enabled: bool, accum: u16, pulses: nat)

  /**
    The sweep over consecutive milliseconds `mss` with the engine state held
    at `engine`. The tacho output takes each READY pulse within its own
    millisecond, so every step starts from a flag that is not READY and a
    pulse is counted for each step that made one ready.
   */
  function SweepRun(enabled: bool, accum: u16, mss: seq<u32>, incr: u16, engine: u8,
                    sweepTimeMs: u32, sweepRampMs: u32): SweepTotal
    requires sweepRampMs > 0
    decreases |mss|
  {
    if mss == [] then SweepTotal(enabled, accum, 0)
    else
      var r := SweepStep(enabled, accum, TachoInactive, incr, mss[0], engine, sweepTimeMs, sweepRampMs);
      var rest := SweepRun(r.enabled, r.accum, mss[1..], incr, engine, sweepTimeMs, sweepRampMs);
      rest.(pulses := rest.pulses + if r.flag == Ready then 1 else 0)
  }

  /** The total the sweep adds over the milliseconds `mss`. */
  function SweepIncrements(mss: seq<u32>, incr: u16, sweepRampMs: u32): nat
    requires sweepRampMs > 0
    decreases |mss|
  {
    if mss == [] then 0 else SweepIncrement(mss[0], incr, sweepRampMs) + SweepIncrements(mss[1..], incr, sweepRampMs)
  }

  /**
    Nothing is lost by the sweep: while the engine is stopped and the sweep
    time has not run out, the accumulator plus 1000 for every pulse made
    ready is the starting value plus everything added, and the accumulator
    stays under 1000.
   */
  lemma {:induction false} SweepConserves(accum: u16, mss: seq<u32>, incr: u16, sweepTimeMs: u32, sweepRampMs: u32)
    requires sweepRampMs > 0 && accum < MS_PER_SEC && incr <= MS_PER_SEC
    requires forall i :: 0 <= i < |mss| ==> mss[i] < sweepTimeMs
    ensures var t := SweepRun(true, accum, mss, incr, 0, sweepTimeMs, sweepRampMs);
            && t.enabled && t.accum < MS_PER_SEC
            && t.accum + MS_PER_SEC * t.pulses == accum + SweepIncrements(mss, incr, sweepRampMs)
    decreases |mss|
  {
    if mss != [] {
      var r := SweepStep(true, accum, TachoInactive, incr, mss[0], 0, sweepTimeMs, sweepRampMs);
      SweepConserves(r.accum, mss[1..], incr, sweepTimeMs, sweepRampMs);
    }
  }

  datatype TachoOutput = TachoPulseLow | TachoPulseHigh

  datatype Tacho = Tacho(flag: TachoFlag, endTime: u8, alt: bool, outputs: seq<TachoOutput>)

  /**
    The tacho output for one millisecond (`ms` the already incremented
    counter). A READY pulse is driven low and ends `tachoDuration`
    milliseconds later by the low byte of the counter, unless half-speed
    tacho skips every other pulse; the alternation flag toggles on every
    READY. An ACTIVE pulse is released when the low byte reaches its end.
   */
  function TachoStep(flag: TachoFlag, endTime: u8, alt: bool, ms: u32, tachoDiv: u8, tachoDuration: u8): (r: Tacho)
    ensures flag == Ready && (tachoDiv == 0 || alt) ==>
              r == Tacho(Active, ToU8(ms + tachoDuration), !alt, [TachoPulseLow])
    ensures flag == Ready && !(tachoDiv == 0 || alt) ==> r == Tacho(TachoInactive, endTime, !alt, [])
    ensures flag == Active && ToU8(ms) == endTime ==> r == Tacho(TachoInactive, endTime, alt, [TachoPulseHigh])
    ensures flag == Active && ToU8(ms) != endTime ==> r == Tacho(Active, endTime, alt, [])
    ensures flag == TachoInactive ==> r == Tacho(flag, endTime, alt, [])
  {
    match flag
    case Ready =>
      if tachoDiv == 0 || alt then Tacho(Active, ToU8(ToU8(ms) + tachoDuration), !alt, [TachoPulseLow])
      else Tacho(TachoInactive, endTime, !alt, [])
    case Active =>
      if ToU8(ms) == endTime then Tacho(TachoInactive, endTime, alt, [TachoPulseHigh]) else Tacho(flag, endTime, alt, [])
    case TachoInactive => Tacho(flag, endTime, alt, [])
  }

  /** The tacho output over the `n` milliseconds after `ms`, with no new pulse requested. */
  function TachoRun(flag: TachoFlag, endTime: u8, alt: bool, ms: nat, n: nat, tachoDiv: u8, tachoDuration: u8): (r: Tacho)
    decreases n
  {
    if n == 0 then Tacho(flag, endTime, alt, [])
    else
      var step := TachoStep(flag, endTime, alt, ToU32(ms + 1), tachoDiv, tachoDuration);
      var rest := TachoRun(step.flag, step.endTime, step.alt, ms + 1, n - 1, tachoDiv, tachoDuration);
      Tacho(rest.flag, rest.endTime, rest.alt, step.outputs + rest.outputs)
  }

  /**
    The pulse width: a pulse started at millisecond `ms` with a duration of
    `d` (1 to 255) stays low for the next `d - 1` milliseconds and is
    released exactly on the `d`-th, emitting one release and nothing else.
   */
  lemma {:induction false} TachoPulseWidth(ms: nat, k: nat, d: nat, alt: bool, tachoDiv: u8, tachoDuration: u8)
    requires 1 <= d <= 255 && k <= d
    ensures var r := TachoRun(Active, ToU8(ms + d), alt, ms, k, tachoDiv, tachoDuration);
            && (k < d ==> r.flag == Active && r.outputs == [])
            && (k == d ==> r.flag == TachoInactive && r.outputs == [TachoPulseHigh])
    decreases k
  {
    if k > 0 {
      var step := TachoStep(Active, ToU8(ms + d), alt, ToU32(ms + 1), tachoDiv, tachoDuration);
      LowByteOfU32(ms + 1);
      if d == 1 {
        assert step == Tacho(TachoInactive, ToU8(ms + d), alt, [TachoPulseHigh]);
      } else {
        ByteDistinct(ms + 1, d - 1);
        assert step == Tacho(Active, ToU8(ms + d), alt, []);
        assert ms + 1 + (d - 1) == ms + d;
        TachoPulseWidth(ms + 1, k - 1, d - 1, alt, tachoDiv, tachoDuration);
      }
    }
  }

  /** Bytes `d` apart, for `d` between 1 and 255, are different. */
  lemma ByteDistinct(x: int, d: int)
    requires 1 <= d <= 255
    ensures ToU8(x) != ToU8(x + d)
  {
    ModAddLowByte(x, d);
  }

  /** A READY pulse on full-speed tacho lasts exactly `tachoDuration` milliseconds. */
  lemma TachoReadyPulseLasts(ms: nat, alt: bool, tachoDuration: u8)
    requires 1 <= tachoDuration
    ensures var start := TachoStep(Ready, 0, alt, ToU32(ms), 0, tachoDuration);
            && start.outputs == [TachoPulseLow]
            && start.flag == Active
            && TachoRun(start.flag, start.endTime, start.alt, ms, tachoDuration - 1, 0, tachoDuration).flag == Active
            && TachoRun(start.flag, start.endTime, start.alt, ms, tachoDuration, 0, tachoDuration).outputs == [TachoPulseHigh]
  {
    var start := TachoStep(Ready, 0, alt, ToU32(ms), 0, tachoDuration);
    LowByteOfU32(ms);
    ModAddLowByte(ms, tachoDuration);
    assert start == Tacho(Active, ToU8(ms + tachoDuration), !alt, [TachoPulseLow]);
    TachoPulseWidth(ms, tachoDuration - 1, tachoDuration, !alt, 0, tachoDuration);
    TachoPulseWidth(ms, tachoDuration, tachoDuration, !alt, 0, tachoDuration);
  }

  /** Adding to a truncated byte and truncating again is truncating the sum. */
  lemma ModAddLowByte(x: int, d: int)
    ensures ToU8(ToU8(x) + d) == ToU8(x + d)
  {
    var q := x / U8_MOD;
    assert x == U8_MOD * q + ToU8(x);
    assert ToU8(x) + d == (x + d) + U8_MOD * (-q);
    ModShift(x + d, U8_MOD, -q);
  }

  // ---------------------------------------------------------------------------
  // The tick

  /**
    The 10 Hz bookkeeping: the RPM rate of change per second from the RPM
    100 ms ago, and the tenths of a second the engine has been running.
   */
  function TenHz(t: TimerState, rpm: u16, engineRunning: bool): (r: TimerState)
    ensures r.rpmDOT == (rpm - t.lastRPM100ms) * 10
    ensures r.lastRPM100ms == rpm
    ensures engineRunning ==> r.runSecsX10 == t.runSecsX10 + 1
    ensures !engineRunning ==> r.runSecsX10 == 0
    ensures r.secl == t.secl + 1
    ensures r.(rpmDOT := t.rpmDOT, lastRPM100ms := t.lastRPM100ms, runSecsX10 := t.runSecsX10, secl := t.secl) == t
  {
    t.(rpmDOT := (rpm - t.lastRPM100ms) * 10,
       lastRPM100ms := rpm,
       runSecsX10 := if engineRunning then t.runSecsX10 + 1 else 0,
       secl := t.secl + 1)
  }

  /** One 10 Hz sample: the RPM and whether the engine counts as running. */
  datatype TenHzSample = TenHzSample(rpm: u16, running: bool)

  /** The 10 Hz updates for the samples in order, the last one latest. */
  function TenHzRun(t: TimerState, samples: seq<TenHzSample>): TimerState
    decreases |samples|
  {
    if samples == [] then t
    else
      var last := samples[|samples| - 1];
      TenHz(TenHzRun(t, samples[..|samples| - 1]), last.rpm, last.running)
  }

  /** How many samples at the end of `samples` have the engine running. */
  function RunningTail(samples: seq<TenHzSample>): nat
    decreases |samples|
  {
    if samples == [] || !samples[|samples| - 1].running then 0 else RunningTail(samples[..|samples| - 1]) + 1
  }

  /**
    Over a run of 10 Hz updates: the tenths counter advances once per update;
    the run time counts the updates since the engine last stopped (on top of
    the starting count if it never stopped); the reference RPM is the last
    sample's; and the rate of change is ten times the change between the last
    two samples (the first against the starting reference).
   */
  lemma {:induction false} TenHzRunCounts(t: TimerState, samples: seq<TenHzSample>)
    ensures var r := TenHzRun(t, samples);
            && r.secl == t.secl + |samples|
            && r.runSecsX10 == (if RunningTail(samples) == |samples| then t.runSecsX10 else 0) + RunningTail(samples)
            && (samples != [] ==> r.lastRPM100ms == samples[|samples| - 1].rpm)
            && (|samples| == 1 ==> r.rpmDOT == (samples[0].rpm - t.lastRPM100ms) * 10)
            && (|samples| >= 2 ==> r.rpmDOT == (samples[|samples| - 1].rpm - samples[|samples| - 2].rpm) * 10)
    decreases |samples|
  {
    if samples != [] {
      var init := samples[..|samples| - 1];
      TenHzRunCounts(t, init);
      if |samples| >= 2 {
        assert init[|init| - 1] == samples[|samples| - 2];
      }
    }
  }

  datatype TickEffect = Coil(e: ChannelEffect) | Tachometer(o: TachoOutput)

  datatype TickResult = TickResult(timers: TimerState, ign: seq<IgnitionSchedule>, mask: set<TimerBit>, effects: seq<TickEffect>)

  /** Whether the over-dwell pass runs: enabled, and not locked at cranking. */
  predicate OverDwellEnabled(input: TickInput) {
    input.useDwellLim == 1 && !(input.ignCranklock && input.rpm < input.crankRPM)
  }

  /**
    `initialiseTimers`: the loop counters and the RPM reference are zeroed
    and the tacho output is idle; nothing else is touched.
   */
  function InitialiseTimers(t: TimerState): (r: TimerState)
    ensures LoopsInv(r.loops) && r.loops == LoopsAfter(0)
    ensures r.lastRPM100ms == 0 && r.tachoFlag == TachoInactive
    ensures r.(lastRPM100ms := t.lastRPM100ms, loops := t.loops, tachoFlag := t.tachoFlag) == t
  {
    t.(lastRPM100ms := 0, loops := InitialLoops, tachoFlag := TachoInactive)
  }

  /**
    The over-dwell pass of a tick, when enabled: every coil charging since
    before `micros() - dwellLimit_uS` is fired, and afterwards none is
    still charging from before then. Every call is the fire of a coil that
    was charging and is now OFF, and every channel is either unchanged or
    switched OFF.
   */
  function OverDwellPass(ign: seq<IgnitionSchedule>, input: TickInput): (r: (seq<IgnitionSchedule>, seq<ChannelEffect>))
    ensures |r.0| == |ign|
    ensures OverDwellEnabled(input) ==>
              forall i :: 0 <= i < |ign| ==>
                !(r.0[i].status == Running && r.0[i].startTime < OverDwellTarget(input.now, input.dwellLimitUs))
    ensures OverDwellEnabled(input) ==>
              forall i :: 0 <= i < |ign| && ign[i].status == Running
                          && ign[i].startTime < OverDwellTarget(input.now, input.dwellLimitUs) ==>
                ChannelEffect(IgnitionBank, i, Invoke(ign[i].endCallback)) in r.1
    ensures forall e :: e in r.1 ==>
              && 0 <= e.channel < |ign| && e.bank == IgnitionBank
              && e.effect == Invoke(ign[e.channel].endCallback)
              && ign[e.channel].status == Running && r.0[e.channel].status == Off
    ensures !OverDwellEnabled(input) ==> r == (ign, [])
    ensures forall i :: 0 <= i < |ign| ==> r.0[i] == ign[i] || r.0[i] == ign[i].(status := Off)
  {
    var target := OverDwellTarget(input.now, input.dwellLimitUs);
    OverDwellLeavesNoLongDwell(ign, target);
    if OverDwellEnabled(input) then OverDwellFrom(ign, target, 0) else (ign, [])
  }

  /**
    The timer state, raised flags and tacho outputs of a tick, without the
    coils: the loop counters advance and raise their flags, the sweep runs on
    the new millisecond and the tacho output acts on the flag it leaves.
   */
  function TickTimers(t: TimerState, input: TickInput): (r: (TimerState, set<TimerBit>, seq<TachoOutput>))
    requires input.sweepRampMs > 0
    ensures Hz1000 in r.1
    ensures r.0.msCounter == ToU32(t.msCounter + 1)
    ensures r.0.loops == AdvanceLoops(t.loops).0 && r.1 == AdvanceLoops(t.loops).1
    ensures var sweep := SweepStep(t.tachoSweepEnabled, t.tachoSweepAccum, t.tachoFlag, t.tachoSweepIncr,
                                   r.0.msCounter, input.engine, input.sweepTimeMs, input.sweepRampMs);
            var tacho := TachoStep(sweep.flag, t.tachoEndTime, t.tachoAlt, r.0.msCounter, input.tachoDiv, input.tachoDuration);
            && r.0.tachoSweepEnabled == sweep.enabled && r.0.tachoSweepAccum == sweep.accum
            && r.0.tachoFlag == tacho.flag && r.0.tachoEndTime == tacho.endTime && r.0.tachoAlt == tacho.alt
            && r.2 == tacho.outputs
    ensures r.0.tachoSweepIncr == t.tachoSweepIncr
    ensures LoopsInv(t.loops) ==> LoopsInv(r.0.loops)
    ensures LoopsInv(t.loops) && t.loops.loop100ms == 99 ==>
              r.0.lastRPM100ms == input.rpm && r.0.rpmDOT == (input.rpm - t.lastRPM100ms) * 10
    ensures LoopsInv(t.loops) && t.loops.loop100ms != 99 ==>
              r.0.lastRPM100ms == t.lastRPM100ms && r.0.rpmDOT == t.rpmDOT
  {
    var ms := ToU32(t.msCounter + 1);
    var adv := AdvanceLoops(t.loops);
    var sweep := SweepStep(t.tachoSweepEnabled, t.tachoSweepAccum, t.tachoFlag, t.tachoSweepIncr, ms, input.engine,
                           input.sweepTimeMs, input.sweepRampMs);
    var tacho := TachoStep(sweep.flag, t.tachoEndTime, t.tachoAlt, ms, input.tachoDiv, input.tachoDuration);
    var t1 := t.(msCounter := ms, loops := adv.0, tachoSweepEnabled := sweep.enabled, tachoSweepAccum := sweep.accum,
                 tachoFlag := tacho.flag, tachoEndTime := tacho.endTime, tachoAlt := tacho.alt);
    (if Hz10 in adv.1 then TenHz(t1, input.rpm, input.engineRunning) else t1, adv.1, tacho.outputs)
  }

  /**
    One 1 ms supervisor interrupt, in the firmware's order: flag and counter,
    loop counters, over-dwell pass, sweep, tacho output, then the periodic
    flags with the 10 Hz bookkeeping. Flags are only ever added to the mask.
   */
  function Tick(t: TimerState, ign: seq<IgnitionSchedule>, mask: set<TimerBit>, input: TickInput): (r: TickResult)
    requires input.sweepRampMs > 0
    ensures mask <= r.mask && Hz1000 in r.mask
    ensures r.mask == mask + AdvanceLoops(t.loops).1
    ensures r.timers == TickTimers(t, input).0
    ensures r.ign == OverDwellPass(ign, input).0
    ensures var coils := OverDwellPass(ign, input).1;
            var tacho := TickTimers(t, input).2;
            && |r.effects| == |coils| + |tacho|
            && (forall k :: 0 <= k < |coils| ==> r.effects[k] == Coil(coils[k]))
            && (forall k :: 0 <= k < |tacho| ==> r.effects[|coils| + k] == Tachometer(tacho[k]))
  {
    var coils := OverDwellPass(ign, input);
    var timers := TickTimers(t, input);
    TickResult(timers.0, coils.0, mask + timers.1, TickEffects(coils.1, timers.2))
  }

  /** A tick's effects in order: the over-dwell coil calls, then the tacho pin writes. */
  function TickEffects(coils: seq<ChannelEffect>, tacho: seq<TachoOutput>): (r: seq<TickEffect>)
    ensures |r| == |coils| + |tacho|
    ensures forall k :: 0 <= k < |coils| ==> r[k] == Coil(coils[k])
    ensures forall k :: 0 <= k < |tacho| ==> r[|coils| + k] == Tachometer(tacho[k])
  {
    seq(|coils|, k requires 0 <= k < |coils| => Coil(coils[k]))
    + seq(|tacho|, k requires 0 <= k < |tacho| => Tachometer(tacho[k]))
  }

  /** The timer state after one tick per input, the last input latest. */
  function TimersAfter(t: TimerState, inputs: seq<TickInput>): TimerState
    requires forall i :: 0 <= i < |inputs| ==> inputs[i].sweepRampMs > 0
    decreases |inputs|
  {
    if inputs == [] then t
    else TickTimers(TimersAfter(t, inputs[..|inputs| - 1]), inputs[|inputs| - 1]).0
  }

  /** After `initialiseTimers` and `n` ticks the loop counters are those of `LoopsAfter(n)`. */
  lemma {:induction false} TimersAfterLoops(t: TimerState, inputs: seq<TickInput>)
    requires forall i :: 0 <= i < |inputs| ==> inputs[i].sweepRampMs > 0
    ensures TimersAfter(InitialiseTimers(t), inputs).loops == LoopsAfter(|inputs|)
    decreases |inputs|
  {
    if inputs != [] {
      TimersAfterLoops(t, inputs[..|inputs| - 1]);
    }
  }

  /**
    The tick itself keeps the timer periods: counting from `initialiseTimers`,
    tick `n` raises the 200, 30, 15, 10, 4 and 1 Hz flags exactly when `n`
    is a multiple of 5, 33, 66, 100, 250 and 1000 milliseconds.
   */
  lemma TickFlagsFollowPeriods(t: TimerState, ign: seq<IgnitionSchedule>, mask: set<TimerBit>,
                               inputs: seq<TickInput>, input: TickInput)
    requires forall i :: 0 <= i < |inputs| ==> inputs[i].sweepRampMs > 0
    requires input.sweepRampMs > 0
    ensures var n := |inputs| + 1;
            var bits := Tick(TimersAfter(InitialiseTimers(t), inputs), ign, {}, input).mask;
            && Hz1000 in bits
            && (Hz200 in bits <==> n % 5 == 0)
            && (Hz30 in bits <==> n % 33 == 0)
            && (Hz15 in bits <==> n % 66 == 0)
            && (Hz10 in bits <==> n % 100 == 0)
            && (Hz4 in bits <==> n % 250 == 0)
            && (Hz1 in bits <==> n % 1000 == 0)
  {
    var before := TimersAfter(InitialiseTimers(t), inputs);
    TimersAfterLoops(t, inputs);
    assert Tick(before, ign, {}, input).mask == AdvanceLoops(LoopsAfter(|inputs|)).1;
    FlagPeriods(|inputs| + 1);
  }

}
